=== FILE: README.md ===
# Streaming-service aggregation reports in Dafny

This project models the five MongoDB aggregation pipelines in
`database/queries.js` and proves properties about them. The pipelines read
three collections: streams (listening events), users and songs. Each one
builds a business report:

- `reporteRegaliasUltimoMes`: seconds played and number of streams per
  artist in the last 30 days, most-played artist first.
- `top10Guatemala`: the ten songs streamed most often in the last 7 days
  by users whose country is `"GT"`.
- `usuariosZombis`: the `"Premium"` users with no stream in the last 30 days.
- `demografiaReggaeton`: the users who streamed a Reggaeton song, each
  counted once. They are counted per closed age range ("15-20", "21-30",
  "31-40", "41-50", else "Otros") with the overall total, ordered by label.
- `heavyUsersBadBunny`: the five users who streamed the most distinct songs
  of "Bad Bunny".

Each pipeline is a pure function from the collections, given as sequences,
to a sequence of rows. The stages are built from a few generic pieces:
- `Stages`: equality `$match`, `$sum`, `$lookup` + `$unwind` as an inner
  join, and the distinct keys of a `$group`.
- `Sorting`: `$sort`, specified as ordered plus the same multiset of rows,
  and `$limit`.
- `Records`: the documents, and the inclusive window `date >= bound`.

Every report has a reference definition next to it, stated stream by
stream or as a set comprehension over the collections. Lemmas connect the
report to that reference definition.

The engine leaves two things open, and the model leaves them open too:
- The order among rows with equal sort keys.
- Which value `$first` picks within a group.

Contracts therefore speak of multisets, sets and "no row left out beats a
row kept". Properties that rely on `_id` being unique in `users` or `songs`
take that as a `requires` (`UniqueKeys`). Without it, `$lookup` + `$unwind`
yields one row per match, and `Stages.Join` models exactly that.

## Model

| member | source | states |
|---|---|---|
| Records.Since | database/queries.js:43-45 | A stream is in the window exactly when it is in the input and dated at or after the bound (inclusive `$gte`). The window is never longer than the input. |
| Records.SinceAppend | database/queries.js:43-45 | The window of two runs of streams is the first run's window followed by the second's, so the window keeps the input order and each stream's number of occurrences. |
| Records.SinceNothing | database/queries.js:95-99 | When no stream reaches the bound, the window is empty. |
| Stages.Where | database/queries.js:112-115 | An equality `$match` keeps exactly the documents whose field equals the value, and never adds one. |
| Stages.Join | database/queries.js:46-54 | `$lookup` + `$unwind` is an inner join: a pair is produced exactly when both documents exist and the local field equals the foreign `_id`; documents without a match produce nothing. |
| Stages.JoinUnique | database/queries.js:100-109 | With unique `_id`s the join is one key lookup per left document, so it is never longer than its left input. |
| Stages.Keys | database/queries.js:55-62 | The `_id`s of a `$group` are distinct and are exactly the key values present in the input. |
| Stages.GroupSizesTotal | database/queries.js:322-328 | The groups of a `$group` partition the input: their sizes add up to the number of input documents. |
| Stages.SumPermutation | database/queries.js:334 | `$sum` does not depend on the order of the documents it adds up. |
| Sorting.SortBy | database/queries.js:63-65 | `$sort` yields a permutation of its input (same multiset) ordered by the sort key. |
| Sorting.Limit | database/queries.js:140-142 | `$limit: n` is a prefix of its input: the whole input when it has at most `n` documents, otherwise its first `n`. |
| Sorting.SortLimit | database/queries.js:136-142 | `$sort` then `$limit: n` keeps at most `n` input rows, in order, none more often than it occurs in the input. It keeps all of them when there are at most `n`, and exactly `n` otherwise. No row left out, counting each left-out copy of a repeated row, precedes a row kept. |
| Sorting.JoinKeepsOrder | database/queries.js:432-440 | A `$lookup` + `$unwind` after a `$sort` keeps the sorted order of the left documents. |
| Sorting.LexLeqTotal | database/queries.js:366-368 | The string order of `$sort` on labels is total. |
| Sorting.LexLeqTransitive | database/queries.js:366-368 | The string order of `$sort` on labels is transitive. |
| Sorting.LexLeqAntisymmetric | database/queries.js:366-368 | Two labels that precede each other are equal. |
| Royalties.RoyaltyReport | database/queries.js:42-66 | The report is the artist groups of the window's plays, as a multiset, sorted non-increasing by seconds played. |
| Royalties.GroupMatchesCredits | database/queries.js:46-62 | Grouped over the key-lookup join, an artist's seconds and stream count equal the stream-by-stream totals of the window's streams credited to that artist. |
| Royalties.RoyaltyTotals | database/queries.js:42-62 | With unique song ids, every row's seconds and stream count are those of exactly the window's streams whose song exists and is by the row's artist. The count is positive, and the name is the artist name on the song of one of those streams. |
| Royalties.RoyaltyArtists | database/queries.js:55-62 | An artist has a row if and only if at least one stream of the window is credited to them. |
| Royalties.RoyaltyArtistsDistinct | database/queries.js:55-62 | No artist has two rows. |
| Royalties.RoyaltyEmptyWindow | database/queries.js:43-45 | With no stream in the window the report is empty. |
| RegionalTop.TopTen | database/queries.js:93-143 | At most ten rows, sorted non-increasing by stream count, taken from the song groups without repeating one. No group left out has more streams than a group kept, and the output is cut short only when there are fewer than ten groups. |
| RegionalTop.TopTenTitles | database/queries.js:100-134 | A row's title and artist name are those of the song with the row's id, streamed in the window by an existing `"GT"` user. |
| RegionalTop.TopTenDistinct | database/queries.js:126-142 | No song has two rows. |
| RegionalTop.FirstPlaysCount | database/queries.js:95-134 | Over key-lookup joins, a song's group size is the number of window streams by an existing `"GT"` user of that existing song. |
| RegionalTop.PlaysAreFirstPlays | database/queries.js:100-125 | With unique user and song ids, the two `$lookup` + `$unwind` stages are key lookups. |
| RegionalTop.SongGroupCount | database/queries.js:126-134 | With unique ids, each song group's count is that song's regional stream count, and it is positive. |
| RegionalTop.TopTenCounts | database/queries.js:93-143 | With unique ids, every row's count is the number of window streams by an existing `"GT"` user of that song, and it is positive. |
| RegionalTop.CountedSongHasGroup | database/queries.js:126-134 | A song with at least one regional stream in the window has a group row carrying that count. |
| RegionalTop.TopTenRanking | database/queries.js:135-142 | A song with regional streams that is missing from the output has no more streams than any row, and it is missing only when all ten places are taken. |
| Zombies.Inactive | database/queries.js:177-205 | The outer `$lookup`, the date `$filter` and the emptiness `$match` keep exactly the users with no stream at or after the bound, in order. |
| Zombies.ZombieReport | database/queries.js:171-217 | A row is produced for every Premium user with no stream at or after the bound, including one with no streams at all. Every row is such a user's projection, and no user of another tier appears. |
| Zombies.ZombiesAreAntiJoin | database/queries.js:177-205 | Outer join, filter and emptiness test compute the anti-join "users minus users with a recent stream", in the same order. |
| Zombies.ZombieReportIsAntiJoin | database/queries.js:171-217 | The report is the projection of the Premium users outside the set of active user ids. |
| Demographics.AgeRange | database/queries.js:294-320 | The `$switch` is total. It yields a range label exactly for ages 15 to 50, with the age inside the closed bounds the label spells out, and `"Otros"` for any other or missing age. |
| Demographics.WithTotal | database/queries.js:331-343 | The `_id: null` `$group` and its `$unwind` give no document when there are no ranges. Otherwise each range keeps its label and count, with a total equal to the sum of all the rows' counts. |
| Demographics.Percentage | database/queries.js:351-361 | The exact percentage times the total gives the row's count times 100. It is never negative and at most 100 when the count does not exceed the total. |
| Demographics.DemographicsReport | database/queries.js:242-369 | The report is the per-range rows as a multiset, sorted by label. |
| Demographics.FanKeys | database/queries.js:244-278 | The per-user `$group` has one document for each user who streamed an existing Reggaeton song, and no others. |
| Demographics.UnsortedRows | database/queries.js:322-343 | There is one row per range present, carrying that range's count and the number of listeners as total. There are no rows at all when there is no listener. |
| Demographics.DemographicsTotals | database/queries.js:272-343 | Each user is counted once. There is a row exactly when some user streamed Reggaeton. Every row's total is the number of distinct listeners, each row counts at least one user, and the counts add up to the total. |
| Demographics.ClassifiedListeners | database/queries.js:272-320 | With unique user ids, every listener is classified by the birth date on their own user record. |
| Demographics.DemographicsRanges | database/queries.js:280-328 | With unique user ids, a row's count is the number of distinct listeners whose age falls in the row's range. |
| Demographics.DemographicsOrder | database/queries.js:365-368 | Rows are in strictly ascending label order. Every label is a range label or `"Otros"`, and `"Otros"` is always last. |
| Demographics.PercentagesAddUp | database/queries.js:345-363 | The exact percentages `users * 100 / total` of a non-empty report add up to 100. |
| HeavyUsers.Ranked | database/queries.js:419-429 | At most five user groups, taken from the groups without repeating one, sorted non-increasing by distinct-song count. No group left out has more distinct songs than a group kept. |
| HeavyUsers.RankedDistinct | database/queries.js:404-429 | No user is ranked twice. |
| HeavyUsers.HeavyReport | database/queries.js:385-451 | Rows are exactly the ranked groups paired with a user of the same id, projected, and sorted non-increasing by distinct-song count. |
| HeavyUsers.HeavyOrder | database/queries.js:426-450 | With unique user ids the rows follow the ranking position by position: one row per ranked group that has a user record, none for a group without one. |
| HeavyUsers.GroupSongs | database/queries.js:404-409 | The `$addToSet` of a user's group is the set of distinct "Bad Bunny" songs that user streamed. |
| HeavyUsers.FanScores | database/queries.js:404-417 | A user has a group exactly when they streamed a "Bad Bunny" song. The group's score is the number of distinct such songs, not the number of streams. |
| HeavyUsers.HeavyRows | database/queries.js:432-450 | Each row carries an existing user's username and email with that user's positive number of distinct "Bad Bunny" songs. |
| HeavyUsers.HeavyBound | database/queries.js:426-440 | With unique user ids the output has at most five rows. |
| HeavyUsers.HeavyDropped | database/queries.js:426-440 | A ranked user id with no user record is dropped after the `$limit` and not replaced, so the output is shorter than the ranking. |
| HeavyUsers.HeavyRanking | database/queries.js:419-429 | A user who streamed "Bad Bunny" but is not ranked has no more distinct songs than any ranked user, and is left out only when all five places are taken. |

## Left out

- Connection and output are not modelled: `MongoClient`, `main`, the `console.table` rendering of each result and `process.exit`. These are I/O. Note that `main` exits with status 0 even after catching an error.
- The window bounds are not computed. `new Date()` with `setDate(getDate() - N)` is a wall-clock read, so each window's lower bound is an integer parameter `bound` of the report.
- Ages are not computed. `$dateDiff` against `$$NOW` in years counts calendar-year boundaries crossed. Its result is a caller-supplied function `yearsSince` of the birth date. A missing birth date gives no age, and so the label `"Otros"`.
- Rounding of percentages is not modelled. `$round` to two decimals of a floating-point quotient is floating point, so only the exact rational `users * 100 / total` is modelled (`Demographics.Percentage`).
- Ties are left open. The order among rows with equal sort keys, and which value `$first` picks (artist name, title, birth date), depend on the engine. Contracts state orderedness and multisets, and top-N only as "no row left out beats a row kept".
- `$sum` over documents without a numeric `seconds_played` is not modelled. The field is an `int` in the model.
- Engine internals are not modelled: indexes, parallel scans and snapshot isolation.
- Some properties assume unique `_id`s in `users` and `songs`: the ones that speak of "the song of a stream" or "the user of a stream". They take `UniqueKeys` as a precondition. The reports themselves are defined without it.
- The fallback age bucket is labelled `"Otros"`. It sorts after every numeric label (`Demographics.OtherSortsLast`).

=== FILE: demographics.dfy ===
/**
 * Reggaeton demographics (`demografiaReggaeton`): the distinct users who
 * streamed a Reggaeton song, classified into closed age ranges, counted per
 * range together with the overall total, ordered by range label.
 */
module Demographics {

  import opened Wrappers
  import opened Records
  import opened Stages
  import opened Sorting

  const Genre: string := "Reggaeton"
  const Other: string := "Otros"
  /** The labels of the `$switch` branches, in branch order. */
  const Ranges: seq<string> := ["15-20", "21-30", "31-40", "41-50"]

  /** A Reggaeton play joined with its user. */
  type Fan = (Play, User)

  function FanUserId(f: Fan): Id { f.1.id }

  /** Songs `$lookup`/`$unwind`, genre `$match`, users `$lookup`/`$unwind`. */
  function ReggaetonFans(streams: seq<Stream>, songs: seq<Song>, users: seq<User>): seq<Fan> {
    var plays := Join(streams, songs, StreamSongId, SongId);
    Join(Where(plays, PlayGenre, Genre), users, PlayUserId, UserId)
  }

  // The first `$group`: one document per user.

  datatype Listener = Listener(userId: Id, birthDate: Option<Timestamp>)

  /** The group of one user; `$first` takes the birth date of its first row. */
  function ListenerOf(fans: seq<Fan>, id: Id): Listener
    requires id in Keys(fans, FanUserId)
  {
    KeyHasGroup(fans, FanUserId, id);
    Listener(id, Where(fans, FanUserId, id)[0].1.birthDate)
  }

  function Listeners(fans: seq<Fan>): seq<Listener> {
    var ks := Keys(fans, FanUserId);
    seq(|ks|, i requires 0 <= i < |ks| => ListenerOf(fans, ks[i]))
  }

  // The two `$addFields` stages: age, then age range.

  /**
   * `$dateDiff` from the birth date to the current instant in years, given
   * by the caller as `yearsSince`; a missing birth date has no age.
   */
  function AgeOf(birth: Option<Timestamp>, yearsSince: Timestamp -> int): Option<int> {
    match birth
    case None => None
    case Some(b) => Some(yearsSince(b))
  }

  /** The value of a decimal digit. */
  function Digit(c: char): int {
    c as int - '0' as int
  }

  /** The least age a range label names ("21" in "21-30"). */
  function Low(range: string): int
    requires |range| == 5
  {
    Digit(range[0]) * 10 + Digit(range[1])
  }

  /** The greatest age a range label names ("30" in "21-30"). */
  function High(range: string): int
    requires |range| == 5
  {
    Digit(range[3]) * 10 + Digit(range[4])
  }

  /**
   * The `$switch`: the first range whose closed bounds hold the age, or
   * `Other` for an age outside every range and for a missing age. A range
   * label is the text of its own bounds.
   */
  function AgeRange(age: Option<int>): (range: string)
    ensures range == Other || range in Ranges
    ensures range != Other <==> age.Some? && 15 <= age.value <= 50
    ensures range in Ranges ==> Low(range) <= age.value <= High(range)
  {
    if age.Some? && 15 <= age.value <= 20 then "15-20"
    else if age.Some? && 21 <= age.value <= 30 then "21-30"
    else if age.Some? && 31 <= age.value <= 40 then "31-40"
    else if age.Some? && 41 <= age.value <= 50 then "41-50"
    else Other
  }

  datatype Classified = Classified(userId: Id, age: Option<int>, range: string)

  function ClassifiedRange(c: Classified): string { c.range }

  function Classify(l: Listener, yearsSince: Timestamp -> int): Classified {
    var age := AgeOf(l.birthDate, yearsSince);
    Classified(l.userId, age, AgeRange(age))
  }

  function ClassifyAll(ls: seq<Listener>, yearsSince: Timestamp -> int): seq<Classified> {
    seq(|ls|, i requires 0 <= i < |ls| => Classify(ls[i], yearsSince))
  }

  // The second `$group`: users per range.

  datatype RangeCount = RangeCount(range: string, users: nat)

  function RangeUsers(c: RangeCount): int { c.users }

  function CountsFor(ks: seq<string>, cs: seq<Classified>): seq<RangeCount> {
    if ks == [] then []
    else [RangeCount(ks[0], |Where(cs, ClassifiedRange, ks[0])|)] + CountsFor(ks[1..], cs)
  }

  function RangeCounts(cs: seq<Classified>): seq<RangeCount> {
    CountsFor(Keys(cs, ClassifiedRange), cs)
  }

  // The third `$group` (`_id: null`), its `$unwind` and the `$project`.

  /** One output document; the percentage is `users * 100 / total`, see `Percentage`. */
  datatype AgeRangeRow = AgeRangeRow(range: string, users: nat, total: int)

  function RowUsers(row: AgeRangeRow): int { row.users }
  function RowRange(row: AgeRangeRow): string { row.range }

  /** `$unwind` of the pushed range documents, each with the grand total beside it. */
  function Stamp(counts: seq<RangeCount>, total: int): (r: seq<AgeRangeRow>)
    ensures |r| == |counts|
    ensures forall i :: 0 <= i < |r| ==> r[i] == AgeRangeRow(counts[i].range, counts[i].users, total)
  {
    seq(|counts|, i requires 0 <= i < |counts| => AgeRangeRow(counts[i].range, counts[i].users, total))
  }

  /**
   * `$group` with `_id: null` yields no document at all for an empty input,
   * so nothing is unwound; otherwise every range carries the grand total.
   */
  function WithTotal(counts: seq<RangeCount>): (r: seq<AgeRangeRow>)
    ensures r == [] <==> counts == []
    ensures |r| == |counts|
    ensures forall i :: 0 <= i < |r| ==>
      r[i].range == counts[i].range && r[i].users == counts[i].users && r[i].total == Sum(r, RowUsers)
  {
    if counts == [] then []
    else
      StampUsers(counts, Sum(counts, RangeUsers));
      Stamp(counts, Sum(counts, RangeUsers))
  }

  /** `$sort: { Rango: 1 }`: ascending by the label as a string. */
  predicate RangeBefore(a: AgeRangeRow, b: AgeRangeRow) {
    LexLeq(a.range, b.range)
  }

  lemma RangeBeforeIsPreorder()
    ensures TotalPreorder(RangeBefore)
  {
    forall a: AgeRangeRow, b: AgeRangeRow
      ensures RangeBefore(a, b) || RangeBefore(b, a)
    {
      LexLeqTotal(a.range, b.range);
    }
    forall a: AgeRangeRow, b: AgeRangeRow, c: AgeRangeRow | RangeBefore(a, b) && RangeBefore(b, c)
      ensures RangeBefore(a, c)
    {
      LexLeqTransitive(a.range, b.range, c.range);
    }
  }

  function Unsorted(streams: seq<Stream>, songs: seq<Song>, users: seq<User>, yearsSince: Timestamp -> int): seq<AgeRangeRow> {
    WithTotal(RangeCounts(ClassifyAll(Listeners(ReggaetonFans(streams, songs, users)), yearsSince)))
  }

  /** The whole pipeline. */
  function DemographicsReport(streams: seq<Stream>, songs: seq<Song>, users: seq<User>, yearsSince: Timestamp -> int): (r: seq<AgeRangeRow>)
    ensures SortedBy(r, RangeBefore)
    ensures multiset(r) == multiset(Unsorted(streams, songs, users, yearsSince))
  {
    RangeBeforeIsPreorder();
    SortBy(Unsorted(streams, songs, users, yearsSince), RangeBefore)
  }

  /** The percentage of a row as an exact rational, before rounding to two decimals. */
  function Percentage(row: AgeRangeRow): (r: real)
    requires row.total > 0
    ensures r * (row.total as real) == (row.users as real) * 100.0
    ensures 0.0 <= r
    ensures row.users <= row.total ==> r <= 100.0
  {
    (row.users as real) * 100.0 / (row.total as real)
  }

  // Reference definitions and the properties of the report.

  /** The ids of the users with at least one stream of a Reggaeton song, song and user existing. */
  function ReggaetonListeners(streams: seq<Stream>, songs: seq<Song>, users: seq<User>): set<Id> {
    set st, so, u | st in streams && so in songs && u in users
      && st.songId == so.id && so.genre == Genre && st.userId == u.id :: u.id
  }

  /** The users among `listeners` whose age, from their own record, falls in `range`. */
  function UsersIn(users: seq<User>, listeners: set<Id>, yearsSince: Timestamp -> int, range: string): set<Id> {
    set u | u in users && u.id in listeners && AgeRange(AgeOf(u.birthDate, yearsSince)) == range :: u.id
  }

  /** The Reggaeton listeners whose age falls in `range`. */
  function ListenersIn(streams: seq<Stream>, songs: seq<Song>, users: seq<User>, yearsSince: Timestamp -> int, range: string): set<Id> {
    UsersIn(users, ReggaetonListeners(streams, songs, users), yearsSince, range)
  }

  /** The first `$group` has one document per listener, and only for listeners. */
  lemma FanKeys(streams: seq<Stream>, songs: seq<Song>, users: seq<User>)
    ensures Elements(Keys(ReggaetonFans(streams, songs, users), FanUserId)) == ReggaetonListeners(streams, songs, users)
  {
    var plays := Join(streams, songs, StreamSongId, SongId);
    var fans := ReggaetonFans(streams, songs, users);
    var ks := Keys(fans, FanUserId);
    forall id | id in ReggaetonListeners(streams, songs, users)
      ensures id in ks
    {
      var st, so, u :| st in streams && so in songs && u in users
        && st.songId == so.id && so.genre == Genre && st.userId == u.id && u.id == id;
      assert (st, so) in plays;
      assert (st, so) in Where(plays, PlayGenre, Genre);
      assert ((st, so), u) in fans;
    }
    forall id | id in ks
      ensures id in ReggaetonListeners(streams, songs, users)
    {
      var f :| f in fans && FanUserId(f) == id;
      assert f.0 in Where(plays, PlayGenre, Genre);
    }
  }

  lemma {:induction false} CountsForSum(ks: seq<string>, cs: seq<Classified>)
    ensures Sum(CountsFor(ks, cs), RangeUsers) == GroupSizes(ks, cs, ClassifiedRange)
  {
    if ks != [] {
      CountsForSum(ks[1..], cs);
    }
  }

  lemma {:induction false} CountsForRows(ks: seq<string>, cs: seq<Classified>)
    ensures |CountsFor(ks, cs)| == |ks|
    ensures forall i :: 0 <= i < |ks| ==> CountsFor(ks, cs)[i] == RangeCount(ks[i], |Where(cs, ClassifiedRange, ks[i])|)
  {
    if ks != [] {
      CountsForRows(ks[1..], cs);
    }
  }

  lemma {:induction false} StampUsers(counts: seq<RangeCount>, total: int)
    ensures Sum(Stamp(counts, total), RowUsers) == Sum(counts, RangeUsers)
  {
    if counts != [] {
      assert Stamp(counts, total) == [AgeRangeRow(counts[0].range, counts[0].users, total)] + Stamp(counts[1..], total);
      StampUsers(counts[1..], total);
    }
  }

  /** The intermediate documents of one run of the pipeline. */
  datatype Trace = Trace(
    fans: seq<Fan>, ks: seq<Id>, listeners: seq<Listener>, classified: seq<Classified>,
    ranges: seq<string>, counts: seq<RangeCount>, rows: seq<AgeRangeRow>)

  function Run(streams: seq<Stream>, songs: seq<Song>, users: seq<User>, yearsSince: Timestamp -> int): Trace {
    var fans := ReggaetonFans(streams, songs, users);
    var ls := Listeners(fans);
    var cs := ClassifyAll(ls, yearsSince);
    Trace(fans, Keys(fans, FanUserId), ls, cs, Keys(cs, ClassifiedRange), RangeCounts(cs), Unsorted(streams, songs, users, yearsSince))
  }

  /** The unsorted rows: one per range present, each with its positive count and the grand total. */
  lemma UnsortedRows(streams: seq<Stream>, songs: seq<Song>, users: seq<User>, yearsSince: Timestamp -> int)
    ensures var run := Run(streams, songs, users, yearsSince);
      && |run.rows| == |run.ranges|
      && (run.rows == [] <==> run.ks == [])
      && forall i :: 0 <= i < |run.rows| ==>
           run.rows[i] == AgeRangeRow(run.ranges[i], |Where(run.classified, ClassifiedRange, run.ranges[i])|, |run.ks|)
  {
    var run := Run(streams, songs, users, yearsSince);
    CountsForRows(run.ranges, run.classified);
    CountsForSum(run.ranges, run.classified);
    GroupSizesTotal(run.classified, ClassifiedRange);
    if run.ks != [] {
      assert run.classified[0] in run.classified;
    }
  }

  /** The unsorted rows' counts add up to the number of listeners. */
  lemma UnsortedSum(streams: seq<Stream>, songs: seq<Song>, users: seq<User>, yearsSince: Timestamp -> int)
    ensures var run := Run(streams, songs, users, yearsSince);
      Sum(run.rows, RowUsers) == |run.ks|
  {
    var run := Run(streams, songs, users, yearsSince);
    if run.counts != [] {
      StampUsers(run.counts, Sum(run.counts, RangeUsers));
    }
    CountsForSum(run.ranges, run.classified);
    GroupSizesTotal(run.classified, ClassifiedRange);
  }

  /**
   * Demographics counts each user once: there is a row exactly when some
   * user listened to Reggaeton; every row carries as total the number of
   * distinct listeners, however many Reggaeton streams each has; each row
   * counts at least one user; and the row counts add up to the total.
   */
  lemma DemographicsTotals(streams: seq<Stream>, songs: seq<Song>, users: seq<User>, yearsSince: Timestamp -> int)
    ensures var r := DemographicsReport(streams, songs, users, yearsSince);
      var listeners := ReggaetonListeners(streams, songs, users);
      && (r == [] <==> listeners == {})
      && (forall row :: row in r ==> row.total == |listeners| && row.users > 0)
      && (r != [] ==> Sum(r, RowUsers) == |listeners|)
  {
    var r := DemographicsReport(streams, songs, users, yearsSince);
    var run := Run(streams, songs, users, yearsSince);
    var listeners := ReggaetonListeners(streams, songs, users);
    FanKeys(streams, songs, users);
    NoDupsCard(run.ks);
    UnsortedRows(streams, songs, users, yearsSince);
    assert |r| == |multiset(r)| == |run.rows|;
    forall row | row in r
      ensures row.total == |listeners| && row.users > 0
    {
      assert row in multiset(run.rows);
      var i :| 0 <= i < |run.rows| && run.rows[i] == row;
      KeyHasGroup(run.classified, ClassifiedRange, run.ranges[i]);
    }
    if r != [] {
      SumPermutation(r, run.rows, RowUsers);
      UnsortedSum(streams, songs, users, yearsSince);
    }
  }

  function ClassifiedUserId(c: Classified): Id { c.userId }

  /** The user ids of the classified documents of one range. */
  function RangeIdsOf(cs: seq<Classified>, range: string): set<Id> {
    set c | c in Where(cs, ClassifiedRange, range) :: ClassifiedUserId(c)
  }

  /** A listener's birth date is the one on the user record of that id. */
  lemma ListenerRecord(fans: seq<Fan>, users: seq<User>, id: Id)
    requires UniqueKeys(users, UserId)
    requires forall f :: f in fans ==> f.1 in users
    requires id in Keys(fans, FanUserId)
    ensures exists u :: u in users && u.id == id
    ensures forall u :: u in users && u.id == id ==> ListenerOf(fans, id).birthDate == u.birthDate
  {
    KeyHasGroup(fans, FanUserId, id);
    var f := Where(fans, FanUserId, id)[0];
    assert f in Where(fans, FanUserId, id);
    forall u | u in users && u.id == id
      ensures ListenerOf(fans, id).birthDate == u.birthDate
    {
      UniqueKeysSame(users, UserId, u, f.1);
    }
  }

  /** The classified listeners: one per listener id, each classified by that user's own record. */
  lemma ClassifiedListeners(streams: seq<Stream>, songs: seq<Song>, users: seq<User>, yearsSince: Timestamp -> int)
    requires UniqueKeys(users, UserId)
    ensures var run := Run(streams, songs, users, yearsSince);
      && |run.classified| == |run.ks|
      && (forall i :: 0 <= i < |run.ks| ==> run.classified[i].userId == run.ks[i])
      && (forall i, u :: 0 <= i < |run.ks| && u in users && u.id == run.ks[i] ==>
            run.classified[i].range == AgeRange(AgeOf(u.birthDate, yearsSince)))
      && (forall i :: 0 <= i < |run.ks| ==> exists u :: u in users && u.id == run.ks[i])
  {
    var run := Run(streams, songs, users, yearsSince);
    assert forall f :: f in run.fans ==> f.1 in users;
    forall i | 0 <= i < |run.ks|
      ensures exists u :: u in users && u.id == run.ks[i]
      ensures forall u :: u in users && u.id == run.ks[i] ==>
        run.classified[i].range == AgeRange(AgeOf(u.birthDate, yearsSince))
    {
      ListenerRecord(run.fans, users, run.ks[i]);
      assert run.classified[i] == Classify(ListenerOf(run.fans, run.ks[i]), yearsSince);
    }
  }

  /** Distinct user ids make the classified documents of one range as many as their ids. */
  lemma {:induction false} RangeIdsCard(cs: seq<Classified>, range: string)
    requires forall i, j :: 0 <= i < |cs| && 0 <= j < |cs| && cs[i].userId == cs[j].userId ==> i == j
    ensures |Where(cs, ClassifiedRange, range)| == |RangeIdsOf(cs, range)|
  {
    var w := Where(cs, ClassifiedRange, range);
    assert NoDups(cs);
    WhereNoDups(cs, ClassifiedRange, range);
    NoDupsCard(w);
    forall c1, c2 | c1 in Elements(w) && c2 in Elements(w) && ClassifiedUserId(c1) == ClassifiedUserId(c2)
      ensures c1 == c2
    {
      var i :| 0 <= i < |cs| && cs[i] == c1;
      var j :| 0 <= j < |cs| && cs[j] == c2;
    }
    InjectiveImageCard(Elements(w), ClassifiedUserId);
    assert Image(Elements(w), ClassifiedUserId) == RangeIdsOf(cs, range);
  }

  /** Each id of a classified document of one range is a listener of that range. */
  lemma RangeIdsListen(cs: seq<Classified>, ks: seq<Id>, users: seq<User>, listeners: set<Id>, yearsSince: Timestamp -> int, range: string)
    requires |cs| == |ks| && Elements(ks) == listeners
    requires forall i :: 0 <= i < |ks| ==> cs[i].userId == ks[i]
    requires forall i, u :: 0 <= i < |ks| && u in users && u.id == ks[i] ==>
      cs[i].range == AgeRange(AgeOf(u.birthDate, yearsSince))
    requires forall i :: 0 <= i < |ks| ==> exists u :: u in users && u.id == ks[i]
    ensures RangeIdsOf(cs, range) <= UsersIn(users, listeners, yearsSince, range)
  {
    var w := Where(cs, ClassifiedRange, range);
    forall id | id in RangeIdsOf(cs, range)
      ensures id in UsersIn(users, listeners, yearsSince, range)
    {
      var c :| c in w && c.userId == id;
      var i :| 0 <= i < |cs| && cs[i] == c;
      assert ks[i] in Elements(ks);
      var u :| u in users && u.id == ks[i];
      assert AgeRange(AgeOf(u.birthDate, yearsSince)) == range;
    }
  }

  /** Each listener of one range is the id of a classified document of that range. */
  lemma RangeListenersIds(cs: seq<Classified>, ks: seq<Id>, users: seq<User>, listeners: set<Id>, yearsSince: Timestamp -> int, range: string)
    requires |cs| == |ks| && Elements(ks) == listeners
    requires forall i :: 0 <= i < |ks| ==> cs[i].userId == ks[i]
    requires forall i, u :: 0 <= i < |ks| && u in users && u.id == ks[i] ==>
      cs[i].range == AgeRange(AgeOf(u.birthDate, yearsSince))
    ensures UsersIn(users, listeners, yearsSince, range) <= RangeIdsOf(cs, range)
  {
    var w := Where(cs, ClassifiedRange, range);
    forall id | id in UsersIn(users, listeners, yearsSince, range)
      ensures id in RangeIdsOf(cs, range)
    {
      var u :| u in users && u.id in listeners && AgeRange(AgeOf(u.birthDate, yearsSince)) == range && u.id == id;
      var i :| 0 <= i < |ks| && ks[i] == id;
      assert cs[i] in w;
    }
  }

  /** Rows counting the classified documents of their range count the listeners of that range. */
  lemma RowsCountListeners(rows: seq<AgeRangeRow>, cs: seq<Classified>, ks: seq<Id>, users: seq<User>,
                           listeners: set<Id>, yearsSince: Timestamp -> int)
    requires |cs| == |ks| && Elements(ks) == listeners && NoDups(ks)
    requires forall i :: 0 <= i < |ks| ==> cs[i].userId == ks[i]
    requires forall i, u :: 0 <= i < |ks| && u in users && u.id == ks[i] ==>
      cs[i].range == AgeRange(AgeOf(u.birthDate, yearsSince))
    requires forall i :: 0 <= i < |ks| ==> exists u :: u in users && u.id == ks[i]
    requires forall i :: 0 <= i < |rows| ==> rows[i].users == |Where(cs, ClassifiedRange, rows[i].range)|
    ensures forall i :: 0 <= i < |rows| ==> rows[i].users == |UsersIn(users, listeners, yearsSince, rows[i].range)|
  {
    assert forall i, j :: 0 <= i < |cs| && 0 <= j < |cs| && cs[i].userId == cs[j].userId ==> i == j by {
      forall i, j | 0 <= i < |cs| && 0 <= j < |cs| && cs[i].userId == cs[j].userId
        ensures i == j
      {
        assert !(i < j) && !(j < i);
      }
    }
    forall i | 0 <= i < |rows|
      ensures rows[i].users == |UsersIn(users, listeners, yearsSince, rows[i].range)|
    {
      RangeIdsCard(cs, rows[i].range);
      RangeIdsListen(cs, ks, users, listeners, yearsSince, rows[i].range);
      RangeListenersIds(cs, ks, users, listeners, yearsSince, rows[i].range);
      assert RangeIdsOf(cs, rows[i].range) == UsersIn(users, listeners, yearsSince, rows[i].range);
    }
  }

  /**
   * Demographics per range: a row's count is the number of distinct
   * listeners whose age, computed from their own birth date, falls in the
   * row's range.
   */
  lemma DemographicsRanges(streams: seq<Stream>, songs: seq<Song>, users: seq<User>, yearsSince: Timestamp -> int)
    requires UniqueKeys(users, UserId)
    ensures forall row :: row in DemographicsReport(streams, songs, users, yearsSince) ==>
      row.users == |ListenersIn(streams, songs, users, yearsSince, row.range)|
  {
    var run := Run(streams, songs, users, yearsSince);
    FanKeys(streams, songs, users);
    UnsortedRows(streams, songs, users, yearsSince);
    ClassifiedListeners(streams, songs, users, yearsSince);
    RowsCountListeners(run.rows, run.classified, run.ks, users, ReggaetonListeners(streams, songs, users), yearsSince);
    forall row | row in DemographicsReport(streams, songs, users, yearsSince)
      ensures row.users == |ListenersIn(streams, songs, users, yearsSince, row.range)|
    {
      assert row in multiset(run.rows);
    }
  }

  /** `$sort` on labels as strings puts each numeric range before `Other`. */
  lemma OtherSortsLast()
    ensures forall range :: range in Ranges ==> LexLeq(range, Other) && !LexLeq(Other, range)
  {
  }

  /** The keys of the second `$group` are labels of the classified documents. */
  lemma {:induction false} RangeKeys(ls: seq<Listener>, yearsSince: Timestamp -> int)
    ensures forall k :: k in Keys(ClassifyAll(ls, yearsSince), ClassifiedRange) ==> k == Other || k in Ranges
  {
    var cs := ClassifyAll(ls, yearsSince);
    forall k | k in Keys(cs, ClassifiedRange)
      ensures k == Other || k in Ranges
    {
      var c :| c in cs && ClassifiedRange(c) == k;
      var n :| 0 <= n < |cs| && cs[n] == c;
      assert c == Classify(ls[n], yearsSince);
    }
  }

  /** Every label the second `$group` produces is a range label or `Other`, each once. */
  lemma UnsortedLabels(streams: seq<Stream>, songs: seq<Song>, users: seq<User>, yearsSince: Timestamp -> int)
    ensures var rows := Run(streams, songs, users, yearsSince).rows;
      && (forall row :: row in rows ==> row.range == Other || row.range in Ranges)
      && (forall i, j :: 0 <= i < j < |rows| ==> rows[i].range != rows[j].range)
  {
    var run := Run(streams, songs, users, yearsSince);
    UnsortedRows(streams, songs, users, yearsSince);
    RangeKeys(run.listeners, yearsSince);
    forall row | row in run.rows
      ensures row.range == Other || row.range in Ranges
    {
      var k :| 0 <= k < |run.rows| && run.rows[k] == row;
      assert run.ranges[k] in run.ranges;
    }
  }

  /** Sorting keeps the labels of the rows. */
  lemma SortedLabelsKept(rows: seq<AgeRangeRow>, r: seq<AgeRangeRow>)
    requires multiset(r) == multiset(rows)
    requires forall row :: row in rows ==> row.range == Other || row.range in Ranges
    ensures forall i :: 0 <= i < |r| ==> r[i].range == Other || r[i].range in Ranges
  {
    forall i | 0 <= i < |r|
      ensures r[i].range == Other || r[i].range in Ranges
    {
      assert r[i] in multiset(rows);
    }
  }

  /** Sorting rows with distinct labels keeps them distinct. */
  lemma SortedLabelsDistinct(rows: seq<AgeRangeRow>, r: seq<AgeRangeRow>)
    requires multiset(r) == multiset(rows)
    requires forall i, j :: 0 <= i < j < |rows| ==> rows[i].range != rows[j].range
    ensures forall i, j :: 0 <= i < j < |r| ==> r[i].range != r[j].range
  {
    assert UniqueKeys(rows, RowRange);
    SubMultisetKeepsUniqueKeys(rows, r, RowRange);
  }

  /** In rows sorted by distinct labels, `Other` can only be the last label. */
  lemma OtherLast(r: seq<AgeRangeRow>)
    requires SortedBy(r, RangeBefore)
    requires forall i :: 0 <= i < |r| ==> r[i].range == Other || r[i].range in Ranges
    requires forall i, j :: 0 <= i < j < |r| ==> r[i].range != r[j].range
    ensures forall i :: 0 <= i < |r| - 1 ==> r[i].range != Other
  {
    OtherSortsLast();
    forall i | 0 <= i < |r| - 1
      ensures r[i].range != Other
    {
      var last := |r| - 1;
      assert LexLeq(r[i].range, r[last].range);
      assert r[i].range != r[last].range;
    }
  }

  /**
   * Demographics order: the rows are in strictly ascending label order,
   * every label is a range label or `Other`, and `Other`, when present, is
   * the last row.
   */
  lemma DemographicsOrder(streams: seq<Stream>, songs: seq<Song>, users: seq<User>, yearsSince: Timestamp -> int)
    ensures var r := DemographicsReport(streams, songs, users, yearsSince);
      && (forall i, j :: 0 <= i < j < |r| ==> r[i].range != r[j].range && LexLeq(r[i].range, r[j].range))
      && (forall i :: 0 <= i < |r| ==> r[i].range == Other || r[i].range in Ranges)
      && (forall i :: 0 <= i < |r| - 1 ==> r[i].range != Other)
  {
    var r := DemographicsReport(streams, songs, users, yearsSince);
    var rows := Unsorted(streams, songs, users, yearsSince);
    UnsortedLabels(streams, songs, users, yearsSince);
    SortedLabelsKept(rows, r);
    SortedLabelsDistinct(rows, r);
    OtherLast(r);
  }

  function PercentSum(rows: seq<AgeRangeRow>): real
    requires forall row :: row in rows ==> row.total > 0
  {
    if rows == [] then 0.0 else Percentage(rows[0]) + PercentSum(rows[1..])
  }

  lemma {:induction false} PercentSumShared(rows: seq<AgeRangeRow>, total: int)
    requires total > 0
    requires forall row :: row in rows ==> row.total == total
    ensures PercentSum(rows) == (Sum(rows, RowUsers) as real) * 100.0 / (total as real)
  {
    if rows != [] {
      PercentSumShared(rows[1..], total);
      assert rows[0] in rows;
      AddShares(rows[0].users, Sum(rows[1..], RowUsers), total);
    }
  }

  lemma AddShares(a: int, b: int, total: int)
    requires total > 0
    ensures (a as real) * 100.0 / (total as real) + (b as real) * 100.0 / (total as real)
      == ((a + b) as real) * 100.0 / (total as real)
  {
  }

  /** Rows sharing a total their counts add up to have percentages adding up to one hundred. */
  lemma PercentSumWhole(rows: seq<AgeRangeRow>, total: int)
    requires total > 0
    requires forall row :: row in rows ==> row.total == total
    requires Sum(rows, RowUsers) == total
    ensures PercentSum(rows) == 100.0
  {
    PercentSumShared(rows, total);
    WholeIsHundred(total);
  }

  lemma WholeIsHundred(total: int)
    requires total > 0
    ensures (total as real) * 100.0 / (total as real) == 100.0
  {
    var t := total as real;
    assert t * 100.0 / t == 100.0 * (t / t);
    assert t / t == 1.0;
  }

  /** The exact percentages of a non-empty report add up to one hundred. */
  lemma PercentagesAddUp(streams: seq<Stream>, songs: seq<Song>, users: seq<User>, yearsSince: Timestamp -> int)
    requires DemographicsReport(streams, songs, users, yearsSince) != []
    ensures forall row :: row in DemographicsReport(streams, songs, users, yearsSince) ==> row.total > 0
    ensures PercentSum(DemographicsReport(streams, songs, users, yearsSince)) == 100.0
  {
    DemographicsTotals(streams, songs, users, yearsSince);
    PercentSumWhole(DemographicsReport(streams, songs, users, yearsSince), |ReggaetonListeners(streams, songs, users)|);
  }
}

=== FILE: heavy_users.dfy ===
/**
 * Heavy users of one artist (`heavyUsersBadBunny`): the five users who
 * streamed the most distinct songs of "Bad Bunny", by number of distinct
 * songs rather than number of streams.
 */
module HeavyUsers {

  import opened Records
  import opened Stages
  import opened Sorting

  const Artist: string := "Bad Bunny"
  const TopSize: nat := 5

  /** Songs `$lookup`/`$unwind`, then the exact, case-sensitive artist `$match`. */
  function ArtistPlays(streams: seq<Stream>, songs: seq<Song>): seq<Play> {
    Where(Join(streams, songs, StreamSongId, SongId), PlayArtistName, Artist)
  }

  /** The `$group` document of one user with its `$size` field: `_id` is the stream's user id. */
  datatype HeavyFan = HeavyFan(userId: Id, songIds: set<Id>, distinctSongs: nat)

  function HeavyFanUserId(f: HeavyFan): Id { f.userId }

  /** `$addToSet` of the song ids of `plays`. */
  function SongIds(plays: seq<Play>): set<Id> {
    set p | p in plays :: p.1.id
  }

  function FanOf(plays: seq<Play>, id: Id): HeavyFan
    requires id in Keys(plays, PlayUserId)
  {
    var ids := SongIds(Where(plays, PlayUserId, id));
    HeavyFan(id, ids, |ids|)
  }

  function Fans(plays: seq<Play>): seq<HeavyFan> {
    var ks := Keys(plays, PlayUserId);
    seq(|ks|, i requires 0 <= i < |ks| => FanOf(plays, ks[i]))
  }

  /** `$sort: { totalCancionesDistintas: -1 }`. */
  predicate MoreSongs(a: HeavyFan, b: HeavyFan) {
    a.distinctSongs >= b.distinctSongs
  }

  lemma MoreSongsIsPreorder()
    ensures TotalPreorder(MoreSongs)
  {
  }

  /** `$sort` then `$limit: 5` over the groups. */
  function Ranked(streams: seq<Stream>, songs: seq<Song>): (r: seq<HeavyFan>)
    ensures |r| <= TopSize
    ensures SortedBy(r, MoreSongs)
    ensures multiset(r) <= multiset(Fans(ArtistPlays(streams, songs)))
    ensures forall x, y :: x in r && y in multiset(Fans(ArtistPlays(streams, songs))) - multiset(r) ==> MoreSongs(x, y)
    ensures |Fans(ArtistPlays(streams, songs))| <= TopSize ==>
      multiset(r) == multiset(Fans(ArtistPlays(streams, songs)))
    ensures |Fans(ArtistPlays(streams, songs))| > TopSize ==> |r| == TopSize
  {
    MoreSongsIsPreorder();
    SortLimit(Fans(ArtistPlays(streams, songs)), MoreSongs, TopSize)
  }

  /** No user is ranked twice. */
  lemma RankedDistinct(streams: seq<Stream>, songs: seq<Song>)
    ensures var r := Ranked(streams, songs);
      forall i, j :: 0 <= i < j < |r| ==> r[i].userId != r[j].userId
  {
    var plays := ArtistPlays(streams, songs);
    var ks := Keys(plays, PlayUserId);
    var fans := Fans(plays);
    assert UniqueKeys(fans, HeavyFanUserId) by {
      forall i, j | 0 <= i < j < |fans|
        ensures fans[i].userId != fans[j].userId
      {
        assert fans[i].userId == ks[i] && fans[j].userId == ks[j];
      }
    }
    SubMultisetKeepsUniqueKeys(fans, Ranked(streams, songs), HeavyFanUserId);
  }

  /** The `$project`ed document. */
  datatype HeavyRow = HeavyRow(username: string, email: string, distinctSongs: nat)

  function Row(f: HeavyFan, u: User): HeavyRow {
    HeavyRow(u.username, u.email, f.distinctSongs)
  }

  predicate MoreRowSongs(a: HeavyRow, b: HeavyRow) {
    a.distinctSongs >= b.distinctSongs
  }

  /** The `$project` of every joined pair. */
  function Rows(joined: seq<(HeavyFan, User)>): (r: seq<HeavyRow>)
    ensures |r| == |joined|
    ensures forall i :: 0 <= i < |r| ==> r[i] == Row(joined[i].0, joined[i].1)
  {
    seq(|joined|, i requires 0 <= i < |joined| => Row(joined[i].0, joined[i].1))
  }

  /** Joining ranked fans with users and projecting keeps the ranking's order. */
  lemma RowsSorted(ranked: seq<HeavyFan>, users: seq<User>)
    requires SortedBy(ranked, MoreSongs)
    ensures SortedBy(Rows(Join(ranked, users, HeavyFanUserId, UserId)), MoreRowSongs)
  {
    MoreSongsIsPreorder();
    JoinKeepsOrder(ranked, users, HeavyFanUserId, UserId, MoreSongs);
  }

  /** The projected rows are exactly the ranked fans paired with users of the same id. */
  lemma RowsMembers(ranked: seq<HeavyFan>, users: seq<User>)
    ensures forall row :: row in Rows(Join(ranked, users, HeavyFanUserId, UserId)) ==>
      exists f, u :: f in ranked && u in users && u.id == f.userId && row == Row(f, u)
    ensures forall f, u :: f in ranked && u in users && u.id == f.userId ==>
      Row(f, u) in Rows(Join(ranked, users, HeavyFanUserId, UserId))
  {
    var joined := Join(ranked, users, HeavyFanUserId, UserId);
    var r := Rows(joined);
    forall row | row in r
      ensures exists f, u :: f in ranked && u in users && u.id == f.userId && row == Row(f, u)
    {
      var i :| 0 <= i < |r| && r[i] == row;
      assert joined[i] in joined;
    }
    forall f, u | f in ranked && u in users && u.id == f.userId
      ensures Row(f, u) in r
    {
      assert (f, u) in joined;
      var i :| 0 <= i < |joined| && joined[i] == (f, u);
      assert r[i] == Row(f, u);
    }
  }

  /**
   * The whole pipeline: the users `$lookup` comes after the `$limit`, so a
   * row is a ranked fan paired with a user of the same id, every such pair
   * gives a row, and the rows are sorted by distinct-song count.
   */
  function HeavyReport(streams: seq<Stream>, songs: seq<Song>, users: seq<User>): (r: seq<HeavyRow>)
    ensures SortedBy(r, MoreRowSongs)
    ensures forall row :: row in r ==>
      exists f, u :: f in Ranked(streams, songs) && u in users && u.id == f.userId && row == Row(f, u)
    ensures forall f, u :: f in Ranked(streams, songs) && u in users && u.id == f.userId ==> Row(f, u) in r
  {
    var ranked := Ranked(streams, songs);
    RowsSorted(ranked, users);
    RowsMembers(ranked, users);
    Rows(Join(ranked, users, HeavyFanUserId, UserId))
  }

  /**
   * The report fan by fan: each ranked fan, in ranking order, gives the row
   * of the user with its id, or no row when there is no such user.
   */
  function RankedRows(ranked: seq<HeavyFan>, users: seq<User>): seq<HeavyRow> {
    if ranked == [] then []
    else
      (match Find(users, UserId, ranked[0].userId)
       case None => []
       case Some(u) => [Row(ranked[0], u)])
      + RankedRows(ranked[1..], users)
  }

  lemma {:induction false} RowsFirst(ranked: seq<HeavyFan>, users: seq<User>)
    ensures Rows(JoinFirst(ranked, users, HeavyFanUserId, UserId)) == RankedRows(ranked, users)
  {
    if ranked == [] {
      assert Rows([]) == [];
    } else {
      var h := Hit(ranked[0], users, HeavyFanUserId, UserId);
      var t := JoinFirst(ranked[1..], users, HeavyFanUserId, UserId);
      RowsFirst(ranked[1..], users);
      assert Rows(h + t) == Rows(h) + Rows(t);
    }
  }

  /**
   * Heavy-user order: with unique user ids the rows follow the ranking
   * position by position, one row per ranked fan that has a user record.
   */
  lemma HeavyOrder(streams: seq<Stream>, songs: seq<Song>, users: seq<User>)
    requires UniqueKeys(users, UserId)
    ensures HeavyReport(streams, songs, users) == RankedRows(Ranked(streams, songs), users)
  {
    JoinUnique(Ranked(streams, songs), users, HeavyFanUserId, UserId);
    RowsFirst(Ranked(streams, songs), users);
  }

  // Reference definitions.

  /** The distinct songs of the artist that `user` streamed, each song existing. */
  function ArtistSongs(streams: seq<Stream>, songs: seq<Song>, user: Id): set<Id> {
    set st, so | st in streams && so in songs && st.songId == so.id
      && so.artistName == Artist && st.userId == user :: so.id
  }

  /** The group of a user who streamed the artist scores that user's distinct songs of the artist. */
  lemma FanOfListener(streams: seq<Stream>, songs: seq<Song>, user: Id)
    requires user in Keys(ArtistPlays(streams, songs), PlayUserId)
    ensures FanOf(ArtistPlays(streams, songs), user).songIds == ArtistSongs(streams, songs, user)
    ensures FanOf(ArtistPlays(streams, songs), user).distinctSongs == |ArtistSongs(streams, songs, user)| > 0
  {
    var plays := ArtistPlays(streams, songs);
    GroupSongs(streams, songs, user);
    KeyHasGroup(plays, PlayUserId, user);
    var p := Where(plays, PlayUserId, user)[0];
    assert p in Where(plays, PlayUserId, user);
    assert p.1.id in SongIds(Where(plays, PlayUserId, user));
  }

  /** A user who streamed some song of the artist has a group. */
  lemma ListenerHasGroup(streams: seq<Stream>, songs: seq<Song>, user: Id)
    requires ArtistSongs(streams, songs, user) != {}
    ensures user in Keys(ArtistPlays(streams, songs), PlayUserId)
  {
    var id :| id in ArtistSongs(streams, songs, user);
    var st, so :| st in streams && so in songs && st.songId == so.id
      && so.artistName == Artist && st.userId == user && so.id == id;
    assert (st, so) in Join(streams, songs, StreamSongId, SongId);
    assert (st, so) in ArtistPlays(streams, songs);
  }

  /**
   * Heavy-user scores: a user has a group exactly when they streamed some
   * song of the artist, and the group's score is the number of distinct
   * such songs, however often each was streamed.
   */
  lemma FanScores(streams: seq<Stream>, songs: seq<Song>)
    ensures forall f :: f in Fans(ArtistPlays(streams, songs)) ==>
      && f.songIds == ArtistSongs(streams, songs, f.userId)
      && f.distinctSongs == |ArtistSongs(streams, songs, f.userId)| > 0
    ensures forall user ::
      (exists f :: f in Fans(ArtistPlays(streams, songs)) && f.userId == user)
      <==> ArtistSongs(streams, songs, user) != {}
  {
    var plays := ArtistPlays(streams, songs);
    var ks := Keys(plays, PlayUserId);
    var fans := Fans(plays);
    forall f | f in fans
      ensures f.songIds == ArtistSongs(streams, songs, f.userId)
      ensures f.distinctSongs == |ArtistSongs(streams, songs, f.userId)| > 0
    {
      var i :| 0 <= i < |fans| && fans[i] == f;
      FanOfListener(streams, songs, ks[i]);
    }
    forall user | ArtistSongs(streams, songs, user) != {}
      ensures exists f :: f in fans && f.userId == user
    {
      ListenerHasGroup(streams, songs, user);
      var i :| 0 <= i < |ks| && ks[i] == user;
      assert fans[i] in fans;
    }
  }

  /** The song ids collected for one user are the artist's songs that user streamed. */
  lemma GroupSongs(streams: seq<Stream>, songs: seq<Song>, user: Id)
    ensures SongIds(Where(ArtistPlays(streams, songs), PlayUserId, user)) == ArtistSongs(streams, songs, user)
  {
    var plays := ArtistPlays(streams, songs);
    var joined := Join(streams, songs, StreamSongId, SongId);
    var g := Where(plays, PlayUserId, user);
    forall id | id in ArtistSongs(streams, songs, user)
      ensures id in SongIds(g)
    {
      var st, so :| st in streams && so in songs && st.songId == so.id
        && so.artistName == Artist && st.userId == user && so.id == id;
      assert (st, so) in joined;
      assert (st, so) in plays;
      assert (st, so) in g;
    }
    forall id | id in SongIds(g)
      ensures id in ArtistSongs(streams, songs, user)
    {
      var p :| p in g && p.1.id == id;
      assert p in plays && p in joined;
    }
  }

  /**
   * Heavy-user rows: each row is an existing user's name and email with
   * the number of distinct songs of the artist that user streamed, which is
   * positive.
   */
  lemma HeavyRows(streams: seq<Stream>, songs: seq<Song>, users: seq<User>)
    ensures forall row :: row in HeavyReport(streams, songs, users) ==>
      exists u :: u in users && row == HeavyRow(u.username, u.email, |ArtistSongs(streams, songs, u.id)|)
        && |ArtistSongs(streams, songs, u.id)| > 0
  {
    var ranked := Ranked(streams, songs);
    forall row | row in HeavyReport(streams, songs, users)
      ensures exists u :: u in users && row == HeavyRow(u.username, u.email, |ArtistSongs(streams, songs, u.id)|)
                          && |ArtistSongs(streams, songs, u.id)| > 0
    {
      var f, u :| f in ranked && u in users && u.id == f.userId && row == Row(f, u);
      RankedScore(streams, songs, f);
    }
  }

  /** A ranked fan scores the distinct songs of the artist its user streamed. */
  lemma RankedScore(streams: seq<Stream>, songs: seq<Song>, f: HeavyFan)
    requires f in Ranked(streams, songs)
    ensures f.distinctSongs == |ArtistSongs(streams, songs, f.userId)| > 0
  {
    var plays := ArtistPlays(streams, songs);
    var ks := Keys(plays, PlayUserId);
    assert f in multiset(Fans(plays));
    var i :| 0 <= i < |ks| && Fans(plays)[i] == f;
    FanOfListener(streams, songs, ks[i]);
  }

  /** With unique user ids the output has at most five rows. */
  lemma HeavyBound(streams: seq<Stream>, songs: seq<Song>, users: seq<User>)
    requires UniqueKeys(users, UserId)
    ensures |HeavyReport(streams, songs, users)| <= TopSize
  {
    JoinUnique(Ranked(streams, songs), users, HeavyFanUserId, UserId);
  }

  /**
   * A ranked fan with no user record is dropped after the `$limit` and not
   * replaced: the output is then shorter than the ranking.
   */
  lemma HeavyDropped(streams: seq<Stream>, songs: seq<Song>, users: seq<User>, f: HeavyFan)
    requires UniqueKeys(users, UserId)
    requires f in Ranked(streams, songs)
    requires forall u :: u in users ==> u.id != f.userId
    ensures |HeavyReport(streams, songs, users)| < |Ranked(streams, songs)|
  {
    var ranked := Ranked(streams, songs);
    JoinUnique(ranked, users, HeavyFanUserId, UserId);
    JoinFirstMiss(ranked, users, HeavyFanUserId, UserId, f);
  }

  /**
   * Heavy-user ranking: a user who streamed some song of the artist but is
   * not among the ranked fans has no more distinct songs than any ranked
   * fan, and is only left out when all five places are taken.
   */
  lemma HeavyRanking(streams: seq<Stream>, songs: seq<Song>, user: Id)
    requires ArtistSongs(streams, songs, user) != {}
    requires forall f :: f in Ranked(streams, songs) ==> f.userId != user
    ensures |Ranked(streams, songs)| == TopSize
    ensures forall f :: f in Ranked(streams, songs) ==> f.distinctSongs >= |ArtistSongs(streams, songs, user)|
  {
    FanScores(streams, songs);
    var fans := Fans(ArtistPlays(streams, songs));
    var y :| y in fans && y.userId == user;
    var r := Ranked(streams, songs);
    assert y !in r;
    assert y in multiset(fans);
    assert y !in multiset(r);
    forall f | f in r
      ensures f.distinctSongs >= y.distinctSongs
    {
      assert MoreSongs(f, y);
    }
  }
}

=== FILE: records.dfy ===
/**
 * The three collections the reports read: users, songs and listening events
 * (streams). Identifiers and timestamps are unbounded integers; a timestamp
 * is compared only with `>=` against a window's lower bound.
 */
module Records {

  import opened Wrappers

  type Id = int
  type Timestamp = int

  /** A document of the `users` collection. A missing birth date is `None`. */
  datatype User = User(
    id: Id,
    username: string,
    email: string,
    country: string,
    subscription: string,
    birthDate: Option<Timestamp>)

  /** A document of the `songs` collection; the artist's name is stored on the song. */
  datatype Song = Song(
    id: Id,
    title: string,
    artistId: Id,
    artistName: string,
    genre: string)

  /** A document of the `streams` collection: one listening event. */
  datatype Stream = Stream(
    id: Id,
    userId: Id,
    songId: Id,
    date: Timestamp,
    secondsPlayed: int)

  /** A stream joined with its song (`$lookup` from songs followed by `$unwind`). */
  type Play = (Stream, Song)

  // Field accessors, named so that the generic stages can take them as keys.

  function UserId(u: User): Id { u.id }
  function UserSubscription(u: User): string { u.subscription }
  function SongId(s: Song): Id { s.id }
  function StreamUserId(st: Stream): Id { st.userId }
  function StreamSongId(st: Stream): Id { st.songId }

  function PlayUserId(p: Play): Id { p.0.userId }
  function PlayArtistId(p: Play): Id { p.1.artistId }
  function PlayArtistName(p: Play): string { p.1.artistName }
  function PlayGenre(p: Play): string { p.1.genre }
  function PlaySeconds(p: Play): int { p.0.secondsPlayed }

  /**
   * `$match: { date: { $gte: bound } }`: the streams at or after the
   * window's lower bound, in their original order.
   */
  function Since(streams: seq<Stream>, bound: Timestamp): (r: seq<Stream>)
    ensures |r| <= |streams|
    ensures forall st :: st in r <==> st in streams && st.date >= bound
  {
    if streams == [] then []
    else (if streams[0].date >= bound then [streams[0]] else []) + Since(streams[1..], bound)
  }

  /**
   * The window of two consecutive runs of streams is the window of the first
   * followed by the window of the second: it keeps the input's order and
   * each stream as often as it occurs.
   */
  lemma {:induction false} SinceAppend(a: seq<Stream>, b: seq<Stream>, bound: Timestamp)
    ensures Since(a + b, bound) == Since(a, bound) + Since(b, bound)
  {
    if a == [] {
      assert a + b == b;
    } else {
      assert (a + b)[1..] == a[1..] + b;
      SinceAppend(a[1..], b, bound);
    }
  }

  /** A window that no stream reaches selects nothing. */
  lemma {:induction false} SinceNothing(streams: seq<Stream>, bound: Timestamp)
    requires forall st :: st in streams ==> st.date < bound
    ensures Since(streams, bound) == []
  {
    if streams != [] {
      assert streams[0] in streams;
      SinceNothing(streams[1..], bound);
    }
  }
}

=== FILE: regional_top.dfy ===
/**
 * The regional top ten (`top10Guatemala`): the songs most streamed in a
 * window by users of one country, by number of streams.
 */
module RegionalTop {

  import opened Wrappers
  import opened Records
  import opened Stages
  import opened Sorting

  const Region: string := "GT"
  const TopSize: nat := 10

  /** A stream joined with its listener. */
  type Listen = (Stream, User)
  /** A stream joined with its listener and then with its song. */
  type Heard = (Listen, Song)

  function ListenCountry(p: Listen): string { p.1.country }
  function ListenSongId(p: Listen): Id { p.0.songId }
  function HeardSongId(h: Heard): Id { h.1.id }
  function SongCountId(c: SongCount): Id { c.songId }

  /** One output document: `_id` is the song's id. */
  datatype SongCount = SongCount(songId: Id, title: string, artistName: string, totalStreams: nat)

  /** `$sort: { totalStreams: -1 }`. */
  predicate MoreStreams(a: SongCount, b: SongCount) {
    a.totalStreams >= b.totalStreams
  }

  lemma MoreStreamsIsPreorder()
    ensures TotalPreorder(MoreStreams)
  {
  }

  /** Window `$match`, users `$lookup`/`$unwind`, country `$match`, songs `$lookup`/`$unwind`. */
  function RegionalPlays(streams: seq<Stream>, users: seq<User>, songs: seq<Song>, bound: Timestamp): seq<Heard> {
    var listens := Join(Since(streams, bound), users, StreamUserId, UserId);
    Join(Where(listens, ListenCountry, Region), songs, ListenSongId, SongId)
  }

  /** The `$group` document of one song; `$first` takes title and artist of the group's first row. */
  function SongGroup(heard: seq<Heard>, song: Id): SongCount
    requires song in Keys(heard, HeardSongId)
  {
    KeyHasGroup(heard, HeardSongId, song);
    var g := Where(heard, HeardSongId, song);
    SongCount(song, g[0].1.title, g[0].1.artistName, |g|)
  }

  function SongGroups(heard: seq<Heard>): seq<SongCount> {
    var ks := Keys(heard, HeardSongId);
    seq(|ks|, i requires 0 <= i < |ks| => SongGroup(heard, ks[i]))
  }

  function Groups(streams: seq<Stream>, users: seq<User>, songs: seq<Song>, bound: Timestamp): seq<SongCount> {
    SongGroups(RegionalPlays(streams, users, songs, bound))
  }

  /**
   * The whole pipeline: at most ten songs, most-streamed first, all of them
   * song groups, and none left out that beats one kept.
   */
  function TopTen(streams: seq<Stream>, users: seq<User>, songs: seq<Song>, bound: Timestamp): (r: seq<SongCount>)
    ensures |r| <= TopSize
    ensures SortedBy(r, MoreStreams)
    ensures multiset(r) <= multiset(Groups(streams, users, songs, bound))
    ensures forall x, y :: x in r && y in multiset(Groups(streams, users, songs, bound)) - multiset(r) ==> MoreStreams(x, y)
    ensures |Groups(streams, users, songs, bound)| <= TopSize ==>
      multiset(r) == multiset(Groups(streams, users, songs, bound))
    ensures |Groups(streams, users, songs, bound)| > TopSize ==> |r| == TopSize
  {
    MoreStreamsIsPreorder();
    SortLimit(Groups(streams, users, songs, bound), MoreStreams, TopSize)
  }

  /** No song has two rows. */
  lemma TopTenDistinct(streams: seq<Stream>, users: seq<User>, songs: seq<Song>, bound: Timestamp)
    ensures var r := TopTen(streams, users, songs, bound);
      forall i, j :: 0 <= i < j < |r| ==> r[i].songId != r[j].songId
  {
    var ks := Keys(RegionalPlays(streams, users, songs, bound), HeardSongId);
    var groups := Groups(streams, users, songs, bound);
    assert UniqueKeys(groups, SongCountId) by {
      forall i, j | 0 <= i < j < |groups|
        ensures groups[i].songId != groups[j].songId
      {
        assert groups[i].songId == ks[i] && groups[j].songId == ks[j];
      }
    }
    SubMultisetKeepsUniqueKeys(groups, TopTen(streams, users, songs, bound), SongCountId);
  }

  /** A regional play is a window stream, its existing user of the region, and its existing song. */
  lemma HeardOrigin(streams: seq<Stream>, users: seq<User>, songs: seq<Song>, bound: Timestamp, h: Heard)
    requires h in RegionalPlays(streams, users, songs, bound)
    ensures h.0.0 in streams && h.0.0.date >= bound
    ensures h.0.1 in users && h.0.0.userId == h.0.1.id && h.0.1.country == Region
    ensures h.1 in songs && h.0.0.songId == h.1.id
  {
    var listens := Join(Since(streams, bound), users, StreamUserId, UserId);
    assert h.0 in Where(listens, ListenCountry, Region);
  }

  /** A top-ten row is the group of its own song. */
  lemma TopTenRowIsGroup(streams: seq<Stream>, users: seq<User>, songs: seq<Song>, bound: Timestamp, row: SongCount)
    requires row in TopTen(streams, users, songs, bound)
    ensures row.songId in Keys(RegionalPlays(streams, users, songs, bound), HeardSongId)
    ensures row == SongGroup(RegionalPlays(streams, users, songs, bound), row.songId)
  {
    var heard := RegionalPlays(streams, users, songs, bound);
    var ks := Keys(heard, HeardSongId);
    assert row in multiset(SongGroups(heard));
    var i :| 0 <= i < |ks| && SongGroups(heard)[i] == row;
    assert ks[i] in ks;
  }

  /** A song's group takes its title and artist name from a regional play of that song. */
  lemma GroupTitle(streams: seq<Stream>, users: seq<User>, songs: seq<Song>, bound: Timestamp, song: Id)
    requires song in Keys(RegionalPlays(streams, users, songs, bound), HeardSongId)
    ensures var row := SongGroup(RegionalPlays(streams, users, songs, bound), song);
      exists st, u, so :: && st in streams && st.date >= bound
                          && u in users && st.userId == u.id && u.country == Region
                          && so in songs && st.songId == so.id && so.id == row.songId
                          && so.title == row.title && so.artistName == row.artistName
  {
    var heard := RegionalPlays(streams, users, songs, bound);
    KeyHasGroup(heard, HeardSongId, song);
    var h := Where(heard, HeardSongId, song)[0];
    assert h in Where(heard, HeardSongId, song);
    HeardOrigin(streams, users, songs, bound, h);
  }

  /**
   * Top-ten titles: a row's title and artist name are those of the song with
   * the row's id, as streamed in the window by a user of the region.
   */
  lemma TopTenTitles(streams: seq<Stream>, users: seq<User>, songs: seq<Song>, bound: Timestamp)
    ensures forall row :: row in TopTen(streams, users, songs, bound) ==>
      exists st, u, so :: && st in streams && st.date >= bound
                          && u in users && st.userId == u.id && u.country == Region
                          && so in songs && st.songId == so.id && so.id == row.songId
                          && so.title == row.title && so.artistName == row.artistName
  {
    forall row | row in TopTen(streams, users, songs, bound)
      ensures exists st, u, so :: && st in streams && st.date >= bound
                                  && u in users && st.userId == u.id && u.country == Region
                                  && so in songs && st.songId == so.id && so.id == row.songId
                                  && so.title == row.title && so.artistName == row.artistName
    {
      TopTenRowIsGroup(streams, users, songs, bound, row);
      GroupTitle(streams, users, songs, bound, row.songId);
    }
  }

  // Reference definitions, stream by stream.

  /** `st` counts for `song`: in the window, by an existing user of the region, of that existing song. */
  predicate Counted(st: Stream, users: seq<User>, songs: seq<Song>, bound: Timestamp, song: Id) {
    && st.date >= bound
    && (match Find(users, UserId, st.userId)
        case None => false
        case Some(u) => u.country == Region)
    && (match Find(songs, SongId, st.songId)
        case None => false
        case Some(so) => so.id == song)
  }

  function RegionalStreams(streams: seq<Stream>, users: seq<User>, songs: seq<Song>, bound: Timestamp, song: Id): nat {
    if streams == [] then 0
    else
      (if Counted(streams[0], users, songs, bound, song) then 1 else 0)
      + RegionalStreams(streams[1..], users, songs, bound, song)
  }

  /** The two joins and the country filter, each join done by one key lookup per document. */
  function Lookups(window: seq<Stream>, users: seq<User>, songs: seq<Song>): seq<Heard> {
    var listens := JoinFirst(window, users, StreamUserId, UserId);
    JoinFirst(Where(listens, ListenCountry, Region), songs, ListenSongId, SongId)
  }

  function FirstPlays(streams: seq<Stream>, users: seq<User>, songs: seq<Song>, bound: Timestamp): seq<Heard> {
    Lookups(Since(streams, bound), users, songs)
  }

  lemma LookupsAppend(a: seq<Stream>, b: seq<Stream>, users: seq<User>, songs: seq<Song>)
    ensures Lookups(a + b, users, songs) == Lookups(a, users, songs) + Lookups(b, users, songs)
  {
    JoinFirstAppend(a, b, users, StreamUserId, UserId);
    var la := JoinFirst(a, users, StreamUserId, UserId);
    var lb := JoinFirst(b, users, StreamUserId, UserId);
    WhereAppend(la, lb, ListenCountry, Region);
    JoinFirstAppend(Where(la, ListenCountry, Region), Where(lb, ListenCountry, Region), songs, ListenSongId, SongId);
  }

  /** One stream in the window yields a play of `song` exactly when it counts for `song`. */
  lemma LookupsOne(st: Stream, users: seq<User>, songs: seq<Song>, bound: Timestamp, song: Id)
    requires st.date >= bound
    ensures |Where(Lookups([st], users, songs), HeardSongId, song)| == if Counted(st, users, songs, bound, song) then 1 else 0
  {
    var listens := JoinFirst([st], users, StreamUserId, UserId);
    assert listens == Hit(st, users, StreamUserId, UserId);
    var local := Where(listens, ListenCountry, Region);
    if local != [] {
      assert JoinFirst(local, songs, ListenSongId, SongId) == Hit(local[0], songs, ListenSongId, SongId);
    }
  }

  lemma {:induction false} FirstPlaysCount(streams: seq<Stream>, users: seq<User>, songs: seq<Song>, bound: Timestamp, song: Id)
    ensures |Where(FirstPlays(streams, users, songs, bound), HeardSongId, song)|
      == RegionalStreams(streams, users, songs, bound, song)
  {
    if streams != [] {
      var st := streams[0];
      var head: seq<Stream> := if st.date >= bound then [st] else [];
      var tail := Since(streams[1..], bound);
      assert Since(streams, bound) == head + tail;
      LookupsAppend(head, tail, users, songs);
      WhereAppend(Lookups(head, users, songs), Lookups(tail, users, songs), HeardSongId, song);
      FirstPlaysCount(streams[1..], users, songs, bound, song);
      if head != [] {
        LookupsOne(st, users, songs, bound, song);
      }
    }
  }

  lemma PlaysAreFirstPlays(streams: seq<Stream>, users: seq<User>, songs: seq<Song>, bound: Timestamp)
    requires UniqueKeys(users, UserId) && UniqueKeys(songs, SongId)
    ensures RegionalPlays(streams, users, songs, bound) == FirstPlays(streams, users, songs, bound)
  {
    JoinUnique(Since(streams, bound), users, StreamUserId, UserId);
    var listens := Join(Since(streams, bound), users, StreamUserId, UserId);
    JoinUnique(Where(listens, ListenCountry, Region), songs, ListenSongId, SongId);
  }

  /** The group of a song counts that song's regional streams. */
  lemma SongGroupCount(streams: seq<Stream>, users: seq<User>, songs: seq<Song>, bound: Timestamp, song: Id)
    requires UniqueKeys(users, UserId) && UniqueKeys(songs, SongId)
    requires song in Keys(RegionalPlays(streams, users, songs, bound), HeardSongId)
    ensures SongGroup(RegionalPlays(streams, users, songs, bound), song).totalStreams
      == RegionalStreams(streams, users, songs, bound, song) > 0
  {
    PlaysAreFirstPlays(streams, users, songs, bound);
    KeyHasGroup(RegionalPlays(streams, users, songs, bound), HeardSongId, song);
    FirstPlaysCount(streams, users, songs, bound, song);
  }

  /**
   * Top-ten counts: each row's count is the number of window streams by an
   * existing user of the region of that existing song, and is positive.
   */
  lemma TopTenCounts(streams: seq<Stream>, users: seq<User>, songs: seq<Song>, bound: Timestamp)
    requires UniqueKeys(users, UserId) && UniqueKeys(songs, SongId)
    ensures forall row :: row in TopTen(streams, users, songs, bound) ==>
      row.totalStreams == RegionalStreams(streams, users, songs, bound, row.songId) > 0
  {
    forall row | row in TopTen(streams, users, songs, bound)
      ensures row.totalStreams == RegionalStreams(streams, users, songs, bound, row.songId) > 0
    {
      TopTenRowIsGroup(streams, users, songs, bound, row);
      SongGroupCount(streams, users, songs, bound, row.songId);
    }
  }

  /** A song with regional streams has a group row. */
  lemma CountedSongHasGroup(streams: seq<Stream>, users: seq<User>, songs: seq<Song>, bound: Timestamp, song: Id)
    requires UniqueKeys(users, UserId) && UniqueKeys(songs, SongId)
    requires RegionalStreams(streams, users, songs, bound, song) > 0
    ensures exists y :: (y in Groups(streams, users, songs, bound) && y.songId == song &&
                         y.totalStreams == RegionalStreams(streams, users, songs, bound, song))
  {
    var heard := RegionalPlays(streams, users, songs, bound);
    PlaysAreFirstPlays(streams, users, songs, bound);
    FirstPlaysCount(streams, users, songs, bound, song);
    var g := Where(heard, HeardSongId, song);
    assert g[0] in g;
    var ks := Keys(heard, HeardSongId);
    assert song in ks;
    var i :| 0 <= i < |ks| && ks[i] == song;
    assert SongGroups(heard)[i] in SongGroups(heard);
  }

  /**
   * Top-ten ranking: a song with regional streams that is not in the output
   * has no more streams than any song that is, and is only left out when
   * all ten places are taken.
   */
  lemma TopTenRanking(streams: seq<Stream>, users: seq<User>, songs: seq<Song>, bound: Timestamp, song: Id)
    requires UniqueKeys(users, UserId) && UniqueKeys(songs, SongId)
    requires RegionalStreams(streams, users, songs, bound, song) > 0
    requires forall row :: row in TopTen(streams, users, songs, bound) ==> row.songId != song
    ensures |TopTen(streams, users, songs, bound)| == TopSize
    ensures forall row :: row in TopTen(streams, users, songs, bound) ==>
      row.totalStreams >= RegionalStreams(streams, users, songs, bound, song)
  {
    CountedSongHasGroup(streams, users, songs, bound, song);
    var groups := Groups(streams, users, songs, bound);
    var y :| y in groups && y.songId == song
      && y.totalStreams == RegionalStreams(streams, users, songs, bound, song);
    var r := TopTen(streams, users, songs, bound);
    assert y !in r;
    assert y in multiset(groups);
    assert y !in multiset(r);
    forall row | row in r
      ensures row.totalStreams >= y.totalStreams
    {
      assert MoreStreams(row, y);
    }
  }
}

=== FILE: royalties.dfy ===
/**
 * The royalty report (`reporteRegaliasUltimoMes`): seconds played and number
 * of streams per artist over the streams of a window, most-played first.
 */
module Royalties {

  import opened Wrappers
  import opened Records
  import opened Stages
  import opened Sorting

  /** One output document: `_id` is the artist's id. */
  datatype ArtistRoyalty = ArtistRoyalty(
    artistId: Id,
    artistName: string,
    totalSecondsPlayed: int,
    totalStreams: nat)

  /** `$sort: { totalSecondsPlayed: -1 }`. */
  predicate MoreSeconds(a: ArtistRoyalty, b: ArtistRoyalty) {
    a.totalSecondsPlayed >= b.totalSecondsPlayed
  }

  lemma MoreSecondsIsPreorder()
    ensures TotalPreorder(MoreSeconds)
  {
  }

  /** `$match` on the window, then `$lookup` of the song and `$unwind`. */
  function WindowPlays(streams: seq<Stream>, songs: seq<Song>, bound: Timestamp): seq<Play> {
    Join(Since(streams, bound), songs, StreamSongId, SongId)
  }

  /** The `$group` document of one artist; `$first` takes the name of the group's first play. */
  function ArtistGroup(plays: seq<Play>, artist: Id): ArtistRoyalty
    requires artist in Keys(plays, PlayArtistId)
  {
    KeyHasGroup(plays, PlayArtistId, artist);
    var g := Where(plays, PlayArtistId, artist);
    ArtistRoyalty(artist, g[0].1.artistName, Sum(g, PlaySeconds), |g|)
  }

  function ArtistGroups(plays: seq<Play>): seq<ArtistRoyalty> {
    var ks := Keys(plays, PlayArtistId);
    seq(|ks|, i requires 0 <= i < |ks| => ArtistGroup(plays, ks[i]))
  }

  /** The whole pipeline for a window starting at `bound`. */
  function RoyaltyReport(streams: seq<Stream>, songs: seq<Song>, bound: Timestamp): (r: seq<ArtistRoyalty>)
    ensures SortedBy(r, MoreSeconds)
    ensures multiset(r) == multiset(ArtistGroups(WindowPlays(streams, songs, bound)))
  {
    MoreSecondsIsPreorder();
    SortBy(ArtistGroups(WindowPlays(streams, songs, bound)), MoreSeconds)
  }

  // Reference definitions, stream by stream.

  /** `st` is credited to `artist`: it lies in the window and its song exists and is by `artist`. */
  predicate Credited(st: Stream, songs: seq<Song>, bound: Timestamp, artist: Id) {
    && st.date >= bound
    && match Find(songs, SongId, st.songId)
       case None => false
       case Some(so) => so.artistId == artist
  }

  function CreditedSeconds(streams: seq<Stream>, songs: seq<Song>, bound: Timestamp, artist: Id): int {
    if streams == [] then 0
    else
      (if Credited(streams[0], songs, bound, artist) then streams[0].secondsPlayed else 0)
      + CreditedSeconds(streams[1..], songs, bound, artist)
  }

  function CreditedStreams(streams: seq<Stream>, songs: seq<Song>, bound: Timestamp, artist: Id): nat {
    if streams == [] then 0
    else
      (if Credited(streams[0], songs, bound, artist) then 1 else 0)
      + CreditedStreams(streams[1..], songs, bound, artist)
  }

  /** An artist's group, computed over the key-lookup join, agrees with the stream-by-stream totals. */
  lemma {:induction false} GroupMatchesCredits(streams: seq<Stream>, songs: seq<Song>, bound: Timestamp, artist: Id)
    ensures
      var g := Where(JoinFirst(Since(streams, bound), songs, StreamSongId, SongId), PlayArtistId, artist);
      && Sum(g, PlaySeconds) == CreditedSeconds(streams, songs, bound, artist)
      && |g| == CreditedStreams(streams, songs, bound, artist)
  {
    if streams != [] {
      var st := streams[0];
      var head: seq<Stream> := if st.date >= bound then [st] else [];
      var tail := Since(streams[1..], bound);
      assert Since(streams, bound) == head + tail;
      JoinFirstAppend(head, tail, songs, StreamSongId, SongId);
      var hj := JoinFirst(head, songs, StreamSongId, SongId);
      var tj := JoinFirst(tail, songs, StreamSongId, SongId);
      WhereAppend(hj, tj, PlayArtistId, artist);
      SumAppend(Where(hj, PlayArtistId, artist), Where(tj, PlayArtistId, artist), PlaySeconds);
      GroupMatchesCredits(streams[1..], songs, bound, artist);
      if head != [] {
        assert hj == Hit(st, songs, StreamSongId, SongId);
      }
    }
  }

  /** Every group row is determined by its artist id. */
  lemma GroupRows(plays: seq<Play>)
    ensures forall row :: row in ArtistGroups(plays) ==>
      row.artistId in Keys(plays, PlayArtistId) && row == ArtistGroup(plays, row.artistId)
    ensures NoDups(ArtistGroups(plays))
  {
    var ks := Keys(plays, PlayArtistId);
    var groups := ArtistGroups(plays);
    forall i, j | 0 <= i < j < |groups|
      ensures groups[i] != groups[j]
    {
      assert groups[i].artistId == ks[i] && groups[j].artistId == ks[j];
    }
  }

  /**
   * Royalty totals: each row's seconds and stream count are those of exactly
   * the window's streams whose song exists and is by the row's artist, and
   * the row's name is the name that artist carries on the song of one of
   * those streams.
   */
  lemma RoyaltyTotals(streams: seq<Stream>, songs: seq<Song>, bound: Timestamp)
    requires UniqueKeys(songs, SongId)
    ensures forall row :: row in RoyaltyReport(streams, songs, bound) ==>
      && row.totalSecondsPlayed == CreditedSeconds(streams, songs, bound, row.artistId)
      && row.totalStreams == CreditedStreams(streams, songs, bound, row.artistId)
      && row.totalStreams > 0
      && (exists st, so :: st in streams && so in songs && st.date >= bound && st.songId == so.id
            && so.artistId == row.artistId && so.artistName == row.artistName)
  {
    var plays := WindowPlays(streams, songs, bound);
    JoinUnique(Since(streams, bound), songs, StreamSongId, SongId);
    GroupRows(plays);
    forall row | row in RoyaltyReport(streams, songs, bound)
      ensures row.totalSecondsPlayed == CreditedSeconds(streams, songs, bound, row.artistId)
      ensures row.totalStreams == CreditedStreams(streams, songs, bound, row.artistId)
      ensures row.totalStreams > 0
      ensures (exists st, so :: st in streams && so in songs && st.date >= bound && st.songId == so.id
                 && so.artistId == row.artistId && so.artistName == row.artistName)
    {
      assert row in multiset(ArtistGroups(plays));
      KeyHasGroup(plays, PlayArtistId, row.artistId);
      GroupMatchesCredits(streams, songs, bound, row.artistId);
      var g := Where(plays, PlayArtistId, row.artistId);
      assert g[0] in g && g[0] in plays;
      assert g[0].0 in Since(streams, bound);
    }
  }

  /** Royalty artists: an artist has a row exactly when at least one stream of the window is credited to them. */
  lemma RoyaltyArtists(streams: seq<Stream>, songs: seq<Song>, bound: Timestamp)
    requires UniqueKeys(songs, SongId)
    ensures forall a ::
      (exists row :: row in RoyaltyReport(streams, songs, bound) && row.artistId == a)
      <==> CreditedStreams(streams, songs, bound, a) > 0
  {
    var plays := WindowPlays(streams, songs, bound);
    var groups := ArtistGroups(plays);
    var r := RoyaltyReport(streams, songs, bound);
    RoyaltyTotals(streams, songs, bound);
    forall a | CreditedStreams(streams, songs, bound, a) > 0
      ensures exists row :: row in r && row.artistId == a
    {
      JoinUnique(Since(streams, bound), songs, StreamSongId, SongId);
      GroupMatchesCredits(streams, songs, bound, a);
      var g := Where(plays, PlayArtistId, a);
      assert g[0] in g;
      var ks := Keys(plays, PlayArtistId);
      assert a in ks;
      var i :| 0 <= i < |ks| && ks[i] == a;
      assert groups[i] in multiset(r);
    }
  }

  /** No artist has two rows. */
  lemma RoyaltyArtistsDistinct(streams: seq<Stream>, songs: seq<Song>, bound: Timestamp)
    ensures var r := RoyaltyReport(streams, songs, bound);
      forall i, j :: 0 <= i < j < |r| ==> r[i].artistId != r[j].artistId
  {
    var plays := WindowPlays(streams, songs, bound);
    var groups := ArtistGroups(plays);
    var r := RoyaltyReport(streams, songs, bound);
    GroupRows(plays);
    SubMultisetKeepsNoDups(groups, r);
    forall i, j | 0 <= i < j < |r|
      ensures r[i].artistId != r[j].artistId
    {
      assert r[i] in multiset(groups) && r[j] in multiset(groups);
    }
  }

  /** The output has no stream in the window to report on, so it is empty. */
  lemma RoyaltyEmptyWindow(streams: seq<Stream>, songs: seq<Song>, bound: Timestamp)
    requires forall st :: st in streams ==> st.date < bound
    ensures RoyaltyReport(streams, songs, bound) == []
  {
    SinceNothing(streams, bound);
    assert WindowPlays(streams, songs, bound) == [];
    assert ArtistGroups([]) == [];
    var r := RoyaltyReport(streams, songs, bound);
    assert |r| == |multiset(r)| == 0;
  }
}

=== FILE: sorting.dfy ===
/**
 * `$sort` and `$limit`. A sort is specified by the order it must establish
 * and by keeping the multiset of its input; the relative order of documents
 * with equal sort keys is left open, as MongoDB leaves it.
 */
module Sorting {

  import opened Stages

  /** `le(a, b)`: `a` may come before `b`. */
  ghost predicate TotalPreorder<T(!new)>(le: (T, T) -> bool) {
    && (forall a, b :: le(a, b) || le(b, a))
    && (forall a, b, c :: le(a, b) && le(b, c) ==> le(a, c))
  }

  predicate SortedBy<T>(s: seq<T>, le: (T, T) -> bool) {
    forall i, j :: 0 <= i < j < |s| ==> le(s[i], s[j])
  }

  function InsertBy<T(!new)>(x: T, s: seq<T>, le: (T, T) -> bool): (r: seq<T>)
    requires TotalPreorder(le)
    requires SortedBy(s, le)
    ensures SortedBy(r, le)
    ensures multiset(r) == multiset(s) + multiset{x}
  {
    if s == [] then [x]
    else if le(x, s[0]) then [x] + s
    else
      var rest := InsertBy(x, s[1..], le);
      assert s == [s[0]] + s[1..];
      assert forall y :: y in rest ==> le(s[0], y) by {
        forall y | y in rest
          ensures le(s[0], y)
        {
          assert y in multiset(rest);
          if y != x {
            assert y in multiset(s[1..]);
            var j :| 0 <= j < |s[1..]| && s[1..][j] == y;
            assert s[j + 1] == y;
          }
        }
      }
      [s[0]] + rest
  }

  /** `$sort`: a permutation of `s` ordered by `le`. */
  function SortBy<T(!new)>(s: seq<T>, le: (T, T) -> bool): (r: seq<T>)
    requires TotalPreorder(le)
    ensures SortedBy(r, le)
    ensures multiset(r) == multiset(s)
    ensures |r| == |s|
  {
    if s == [] then []
    else
      assert s == [s[0]] + s[1..];
      InsertBy(s[0], SortBy(s[1..], le), le)
  }

  /** `$limit: n`: the first `n` documents, or all of them when there are fewer. */
  function Limit<T>(s: seq<T>, n: nat): (r: seq<T>)
    ensures |r| <= n && |r| <= |s|
    ensures |s| <= n ==> r == s
    ensures |s| > n ==> |r| == n
    ensures r == s[..|r|]
  {
    if |s| <= n then s else s[..n]
  }

  /**
   * `$sort` followed by `$limit` keeps a best prefix: no document of the
   * input left out by the limit strictly precedes one that was kept.
   */
  lemma LimitKeepsBest<T(!new)>(input: seq<T>, le: (T, T) -> bool, n: nat)
    requires TotalPreorder(le)
    ensures forall x, y :: x in Limit(SortBy(input, le), n) && y in input && y !in Limit(SortBy(input, le), n) ==> le(x, y)
  {
    var sorted := SortBy(input, le);
    var kept := Limit(sorted, n);
    forall x, y | x in kept && y in input && y !in kept
      ensures le(x, y)
    {
      var i :| 0 <= i < |kept| && kept[i] == x;
      assert y in multiset(input);
      assert y in multiset(sorted);
      var j :| 0 <= j < |sorted| && sorted[j] == y;
      assert sorted[i] == x;
    }
  }

  /**
   * `$sort` then `$limit: n`: at most `n` documents of `s`, each kept at
   * most as often as it occurs in `s`, ordered, and no document of `s` left
   * out (counting copies) precedes one that was kept.
   */
  function SortLimit<T(!new)>(s: seq<T>, le: (T, T) -> bool, n: nat): (r: seq<T>)
    requires TotalPreorder(le)
    ensures |r| <= n
    ensures SortedBy(r, le)
    ensures multiset(r) <= multiset(s)
    ensures forall x, y :: x in r && y in multiset(s) - multiset(r) ==> le(x, y)
    ensures |s| <= n ==> multiset(r) == multiset(s)
    ensures |s| > n ==> |r| == n
  {
    var sorted := SortBy(s, le);
    LimitKeepsBest(s, le, n);
    var r := Limit(sorted, n);
    assert sorted == r + sorted[|r|..];
    var rest := sorted[|r|..];
    assert multiset(sorted) == multiset(r) + multiset(rest);
    forall x, y | x in r && y in multiset(s) - multiset(r)
      ensures le(x, y)
    {
      assert y in multiset(rest);
      var j :| 0 <= j < |rest| && rest[j] == y;
      var i :| 0 <= i < |r| && r[i] == x;
      assert sorted[i] == x && sorted[|r| + j] == y;
    }
    r
  }

  /**
   * Comparison of strings by code point, the order `$sort` gives strings
   * under the default (binary) collation: a proper prefix comes first.
   */
  predicate LexLeq(a: string, b: string) {
    a == [] || (b != [] && (a[0] < b[0] || (a[0] == b[0] && LexLeq(a[1..], b[1..]))))
  }

  lemma {:induction false} LexLeqTotal(a: string, b: string)
    ensures LexLeq(a, b) || LexLeq(b, a)
  {
    if a != [] && b != [] && a[0] == b[0] {
      LexLeqTotal(a[1..], b[1..]);
    }
  }

  lemma {:induction false} LexLeqTransitive(a: string, b: string, c: string)
    requires LexLeq(a, b) && LexLeq(b, c)
    ensures LexLeq(a, c)
  {
    if a != [] && b != [] && c != [] && a[0] == b[0] && b[0] == c[0] {
      LexLeqTransitive(a[1..], b[1..], c[1..]);
    }
  }

  /** Equal strings are the only ones that precede each other both ways. */
  lemma {:induction false} LexLeqAntisymmetric(a: string, b: string)
    requires LexLeq(a, b) && LexLeq(b, a)
    ensures a == b
  {
    if a != [] && b != [] {
      LexLeqAntisymmetric(a[1..], b[1..]);
      assert a == [a[0]] + a[1..] && b == [b[0]] + b[1..];
    }
  }

  /**
   * `$lookup` + `$unwind` keeps the order of its left input: the joined rows
   * are ordered by their left documents as the left input was.
   */
  lemma {:induction false} JoinKeepsOrder<A(!new), B(!new), K(!new)>(xs: seq<A>, ys: seq<B>, fk: A -> K, pk: B -> K, le: (A, A) -> bool)
    requires TotalPreorder(le)
    requires SortedBy(xs, le)
    ensures forall i, j :: 0 <= i < j < |Join(xs, ys, fk, pk)| ==> le(Join(xs, ys, fk, pk)[i].0, Join(xs, ys, fk, pk)[j].0)
  {
    if xs != [] {
      var m := Matches(xs[0], ys, fk, pk);
      var rest := Join(xs[1..], ys, fk, pk);
      assert SortedBy(xs[1..], le) by {
        forall i, j | 0 <= i < j < |xs[1..]|
          ensures le(xs[1..][i], xs[1..][j])
        {
          assert xs[1..][i] == xs[i + 1] && xs[1..][j] == xs[j + 1];
        }
      }
      JoinKeepsOrder(xs[1..], ys, fk, pk, le);
      var r := m + rest;
      forall i, j | 0 <= i < j < |r|
        ensures le(r[i].0, r[j].0)
      {
        if j < |m| {
          assert r[i] == m[i] && r[j] == m[j];
          assert m[i] in m && m[j] in m;
          assert le(xs[0], xs[0]);
        } else if i < |m| {
          assert r[i] == m[i] && m[i] in m;
          assert r[j] == rest[j - |m|] && rest[j - |m|] in rest;
          var k :| 0 <= k < |xs[1..]| && xs[1..][k] == r[j].0;
          assert xs[k + 1] == r[j].0;
          assert le(xs[0], xs[k + 1]);
        } else {
          assert r[i] == rest[i - |m|] && r[j] == rest[j - |m|];
          assert le(rest[i - |m|].0, rest[j - |m|].0);
        }
      }
    }
  }
}

=== FILE: stages.dfy ===
/**
 * Generic aggregation-pipeline stages over sequences of documents:
 * equality `$match`, `$sum`, `$lookup` + `$unwind` and the distinct keys of a
 * `$group`. Keys and predicates are passed as named functions.
 */
module Stages {

  import opened Wrappers

  predicate NoDups<K(==,!new)>(s: seq<K>) {
    forall i, j :: 0 <= i < j < |s| ==> s[i] != s[j]
  }

  /** The elements of `s` as a set. */
  function Elements<K>(s: seq<K>): set<K> {
    set x | x in s
  }

  /** `$match: { key: k }`: the documents whose `key` equals `k`, in input order. */
  function Where<T(==,!new), K(==,!new)>(s: seq<T>, key: T -> K, k: K): (r: seq<T>)
    ensures |r| <= |s|
    ensures forall x :: x in r <==> x in s && key(x) == k
  {
    if s == [] then []
    else (if key(s[0]) == k then [s[0]] else []) + Where(s[1..], key, k)
  }

  lemma {:induction false} WhereAppend<T(!new), K(!new)>(a: seq<T>, b: seq<T>, key: T -> K, k: K)
    ensures Where(a + b, key, k) == Where(a, key, k) + Where(b, key, k)
  {
    if a == [] {
      assert a + b == b;
    } else {
      assert (a + b)[0] == a[0];
      assert (a + b)[1..] == a[1..] + b;
      WhereAppend(a[1..], b, key, k);
    }
  }

  /** `$sum` of `f` over the documents of `s`. */
  function Sum<T>(s: seq<T>, f: T -> int): int {
    if s == [] then 0 else f(s[0]) + Sum(s[1..], f)
  }

  lemma {:induction false} SumAppend<T>(a: seq<T>, b: seq<T>, f: T -> int)
    ensures Sum(a + b, f) == Sum(a, f) + Sum(b, f)
  {
    if a == [] {
      assert a + b == b;
    } else {
      assert (a + b)[0] == a[0];
      assert (a + b)[1..] == a[1..] + b;
      SumAppend(a[1..], b, f);
    }
  }

  /** The documents of `ys` whose key `pk` equals the foreign key of `a`, each paired with `a`. */
  function Matches<A(==,!new), B(==,!new), K(==,!new)>(a: A, ys: seq<B>, fk: A -> K, pk: B -> K): (r: seq<(A, B)>)
    ensures |r| <= |ys|
    ensures forall p :: p in r <==> p.0 == a && p.1 in ys && fk(a) == pk(p.1)
  {
    if ys == [] then []
    else (if fk(a) == pk(ys[0]) then [(a, ys[0])] else []) + Matches(a, ys[1..], fk, pk)
  }

  /**
   * `$lookup` (local field `fk`, foreign field `pk`) followed by `$unwind`:
   * one output row per matching pair, left-major; a left document with no
   * match produces no row, one with several matches produces several.
   */
  function Join<A(==,!new), B(==,!new), K(==,!new)>(xs: seq<A>, ys: seq<B>, fk: A -> K, pk: B -> K): (r: seq<(A, B)>)
    ensures forall p :: p in r <==> p.0 in xs && p.1 in ys && fk(p.0) == pk(p.1)
  {
    if xs == [] then []
    else Matches(xs[0], ys, fk, pk) + Join(xs[1..], ys, fk, pk)
  }

  /** Every key `pk` occurs at most once in `ys`, as `_id` does in a collection. */
  predicate UniqueKeys<B, K(==,!new)>(ys: seq<B>, pk: B -> K) {
    forall i, j :: 0 <= i < j < |ys| ==> pk(ys[i]) != pk(ys[j])
  }

  /** The first document of `ys` whose key is `k`, if any. */
  function Find<B(==,!new), K(==,!new)>(ys: seq<B>, pk: B -> K, k: K): (r: Option<B>)
    ensures r.Some? ==> r.value in ys && pk(r.value) == k
    ensures r.None? <==> forall y :: y in ys ==> pk(y) != k
  {
    if ys == [] then None
    else if pk(ys[0]) == k then Some(ys[0])
    else Find(ys[1..], pk, k)
  }

  /** The single row a left document produces when the right-hand keys are unique. */
  function Hit<A, B(==,!new), K(==,!new)>(a: A, ys: seq<B>, fk: A -> K, pk: B -> K): seq<(A, B)> {
    match Find(ys, pk, fk(a))
    case None => []
    case Some(b) => [(a, b)]
  }

  /** The join computed by one key lookup per left document. */
  function JoinFirst<A, B(==,!new), K(==,!new)>(xs: seq<A>, ys: seq<B>, fk: A -> K, pk: B -> K): (r: seq<(A, B)>)
    ensures |r| <= |xs|
  {
    if xs == [] then []
    else Hit(xs[0], ys, fk, pk) + JoinFirst(xs[1..], ys, fk, pk)
  }

  lemma {:induction false} JoinFirstAppend<A, B(!new), K(!new)>(a: seq<A>, b: seq<A>, ys: seq<B>, fk: A -> K, pk: B -> K)
    ensures JoinFirst(a + b, ys, fk, pk) == JoinFirst(a, ys, fk, pk) + JoinFirst(b, ys, fk, pk)
  {
    if a == [] {
      assert a + b == b;
    } else {
      assert (a + b)[0] == a[0];
      assert (a + b)[1..] == a[1..] + b;
      JoinFirstAppend(a[1..], b, ys, fk, pk);
    }
  }

  lemma {:induction false} MatchesUnique<A(!new), B(!new), K(!new)>(a: A, ys: seq<B>, fk: A -> K, pk: B -> K)
    requires UniqueKeys(ys, pk)
    ensures Matches(a, ys, fk, pk) == Hit(a, ys, fk, pk)
  {
    if ys != [] {
      assert UniqueKeys(ys[1..], pk) by {
        forall i, j | 0 <= i < j < |ys[1..]|
          ensures pk(ys[1..][i]) != pk(ys[1..][j])
        {
          assert ys[1..][i] == ys[i + 1] && ys[1..][j] == ys[j + 1];
        }
      }
      MatchesUnique(a, ys[1..], fk, pk);
      if fk(a) == pk(ys[0]) {
        forall y | y in ys[1..]
          ensures pk(y) != fk(a)
        {
          var j :| 0 <= j < |ys[1..]| && ys[1..][j] == y;
          assert ys[j + 1] == y;
        }
        assert Find(ys[1..], pk, fk(a)).None?;
      }
    }
  }

  /** Under unique right-hand keys `$lookup` + `$unwind` is a key lookup per left document. */
  lemma {:induction false} JoinUnique<A(!new), B(!new), K(!new)>(xs: seq<A>, ys: seq<B>, fk: A -> K, pk: B -> K)
    requires UniqueKeys(ys, pk)
    ensures Join(xs, ys, fk, pk) == JoinFirst(xs, ys, fk, pk)
    ensures |Join(xs, ys, fk, pk)| <= |xs|
  {
    if xs != [] {
      MatchesUnique(xs[0], ys, fk, pk);
      JoinUnique(xs[1..], ys, fk, pk);
    }
  }

  /**
   * The distinct values of `key` over `s` — the `_id`s of a `$group`, whose
   * order MongoDB leaves open; here each key stands at its last appearance.
   */
  function Keys<T(==,!new), K(==,!new)>(s: seq<T>, key: T -> K): (r: seq<K>)
    ensures NoDups(r)
    ensures forall k :: k in r <==> exists x :: x in s && key(x) == k
  {
    if s == [] then []
    else
      var ks := Keys(s[1..], key);
      if key(s[0]) in ks then ks else [key(s[0])] + ks
  }

  /** Each group of a `$group` is non-empty: its first document exists. */
  lemma KeyHasGroup<T(!new), K(!new)>(s: seq<T>, key: T -> K, k: K)
    requires k in Keys(s, key)
    ensures Where(s, key, k) != []
  {
    var x :| x in s && key(x) == k;
    assert x in Where(s, key, k);
  }

  /** The sizes of the groups of `s` named by `ks`. */
  function GroupSizes<T(==,!new), K(==,!new)>(ks: seq<K>, s: seq<T>, key: T -> K): nat {
    if ks == [] then 0 else |Where(s, key, ks[0])| + GroupSizes(ks[1..], s, key)
  }

  /** How many times `k` occurs in `ks`. */
  function Occurrences<K(==,!new)>(ks: seq<K>, k: K): nat {
    if ks == [] then 0 else (if ks[0] == k then 1 else 0) + Occurrences(ks[1..], k)
  }

  lemma {:induction false} OccurrencesNoDups<K(!new)>(ks: seq<K>, k: K)
    requires NoDups(ks)
    ensures Occurrences(ks, k) == if k in ks then 1 else 0
  {
    if ks != [] {
      assert NoDups(ks[1..]) by {
        forall i, j | 0 <= i < j < |ks[1..]|
          ensures ks[1..][i] != ks[1..][j]
        {
          assert ks[1..][i] == ks[i + 1] && ks[1..][j] == ks[j + 1];
        }
      }
      OccurrencesNoDups(ks[1..], k);
      if ks[0] == k {
        assert k !in ks[1..] by {
          forall j | 0 <= j < |ks[1..]|
            ensures ks[1..][j] != k
          {
            assert ks[1..][j] == ks[j + 1];
          }
        }
      }
    }
  }

  /** Adding one document in front of `s` adds it to exactly the groups equal to its key. */
  lemma {:induction false} GroupSizesCons<T(!new), K(!new)>(ks: seq<K>, x: T, s: seq<T>, key: T -> K)
    ensures GroupSizes(ks, [x] + s, key) == Occurrences(ks, key(x)) + GroupSizes(ks, s, key)
  {
    if ks != [] {
      assert ([x] + s)[0] == x && ([x] + s)[1..] == s;
      GroupSizesCons(ks[1..], x, s, key);
    }
  }

  lemma {:induction false} GroupSizesCover<T(!new), K(!new)>(ks: seq<K>, s: seq<T>, key: T -> K)
    requires NoDups(ks)
    requires forall x :: x in s ==> key(x) in ks
    ensures GroupSizes(ks, s, key) == |s|
  {
    if s == [] {
      if ks != [] {
        GroupSizesCover(ks[1..], s, key);
      }
    } else {
      assert s == [s[0]] + s[1..];
      GroupSizesCons(ks, s[0], s[1..], key);
      OccurrencesNoDups(ks, key(s[0]));
      GroupSizesCover(ks, s[1..], key);
    }
  }

  /** The `$group` stage partitions its input: the group sizes add up to the number of documents. */
  lemma GroupSizesTotal<T(!new), K(!new)>(s: seq<T>, key: T -> K)
    ensures GroupSizes(Keys(s, key), s, key) == |s|
  {
    GroupSizesCover(Keys(s, key), s, key);
  }

  /** A sequence without duplicates has as many elements as its set. */
  lemma {:induction false} NoDupsCard<K(!new)>(s: seq<K>)
    requires NoDups(s)
    ensures |Elements(s)| == |s|
  {
    if s != [] {
      assert NoDups(s[1..]) by {
        forall i, j | 0 <= i < j < |s[1..]|
          ensures s[1..][i] != s[1..][j]
        {
          assert s[1..][i] == s[i + 1] && s[1..][j] == s[j + 1];
        }
      }
      NoDupsCard(s[1..]);
      assert Elements(s) == {s[0]} + Elements(s[1..]);
      assert s[0] !in Elements(s[1..]) by {
        forall j | 0 <= j < |s[1..]|
          ensures s[1..][j] != s[0]
        {
          assert s[1..][j] == s[j + 1];
        }
      }
    }
  }

  lemma {:induction false} NoDupsMultiplicity<K(!new)>(s: seq<K>, x: K)
    requires NoDups(s)
    ensures multiset(s)[x] <= 1
  {
    if s != [] {
      assert NoDups(s[1..]) by {
        forall i, j | 0 <= i < j < |s[1..]|
          ensures s[1..][i] != s[1..][j]
        {
          assert s[1..][i] == s[i + 1] && s[1..][j] == s[j + 1];
        }
      }
      NoDupsMultiplicity(s[1..], x);
      assert s == [s[0]] + s[1..];
      if s[0] == x {
        assert x !in s[1..] by {
          forall j | 0 <= j < |s[1..]|
            ensures s[1..][j] != x
          {
            assert s[1..][j] == s[j + 1];
          }
        }
      }
    }
  }

  /** A reordering of part of a sequence without duplicates has none either. */
  lemma SubMultisetKeepsNoDups<K(!new)>(s: seq<K>, t: seq<K>)
    requires NoDups(s)
    requires multiset(t) <= multiset(s)
    ensures NoDups(t)
  {
    forall i, j | 0 <= i < j < |t|
      ensures t[i] != t[j]
    {
      NoDupsMultiplicity(s, t[i]);
      assert t == t[..j] + t[j..];
      assert multiset(t) == multiset(t[..j]) + multiset(t[j..]);
      assert t[i] in t[..j];
      assert t[j] in t[j..];
    }
  }

  /** Part of a sequence whose documents have distinct keys, reordered, still has distinct keys. */
  lemma SubMultisetKeepsUniqueKeys<B(!new), K(!new)>(s: seq<B>, t: seq<B>, key: B -> K)
    requires UniqueKeys(s, key)
    requires multiset(t) <= multiset(s)
    ensures UniqueKeys(t, key)
  {
    assert NoDups(s) by {
      forall i, j | 0 <= i < j < |s|
        ensures s[i] != s[j]
      {
        assert key(s[i]) != key(s[j]);
      }
    }
    SubMultisetKeepsNoDups(s, t);
    forall i, j | 0 <= i < j < |t|
      ensures key(t[i]) != key(t[j])
    {
      assert t[i] in multiset(s) && t[j] in multiset(s);
      var k :| 0 <= k < |s| && s[k] == t[i];
      var m :| 0 <= m < |s| && s[m] == t[j];
      assert k < m || m < k;
    }
  }

  /** Keeping some documents of a sequence without duplicates keeps it without duplicates. */
  lemma {:induction false} WhereNoDups<T(!new), K(!new)>(s: seq<T>, key: T -> K, k: K)
    requires NoDups(s)
    ensures NoDups(Where(s, key, k))
  {
    if s != [] {
      assert NoDups(s[1..]) by {
        forall i, j | 0 <= i < j < |s[1..]|
          ensures s[1..][i] != s[1..][j]
        {
          assert s[1..][i] == s[i + 1] && s[1..][j] == s[j + 1];
        }
      }
      WhereNoDups(s[1..], key, k);
      assert s[0] !in s[1..] by {
        forall j | 0 <= j < |s[1..]|
          ensures s[1..][j] != s[0]
        {
          assert s[1..][j] == s[j + 1];
        }
      }
    }
  }

  /** The image of `s` under `f`. */
  function Image<A, B>(s: set<A>, f: A -> B): set<B> {
    set x | x in s :: f(x)
  }

  /** An injective function maps a set onto a set of the same size. */
  lemma {:induction false} InjectiveImageCard<A(!new), B(!new)>(s: set<A>, f: A -> B)
    requires forall x, y :: x in s && y in s && f(x) == f(y) ==> x == y
    ensures |Image(s, f)| == |s|
    decreases |s|
  {
    if s != {} {
      var x :| x in s;
      var rest := s - {x};
      InjectiveImageCard(rest, f);
      assert Image(s, f) == Image(rest, f) + {f(x)};
    }
  }

  /** Reordering a sequence does not change its `$sum`. */
  lemma {:induction false} SumPermutation<T(!new)>(a: seq<T>, b: seq<T>, f: T -> int)
    requires multiset(a) == multiset(b)
    ensures Sum(a, f) == Sum(b, f)
    decreases |a|
  {
    if a == [] {
      assert |b| == |multiset(b)| == 0;
    } else {
      assert a[0] in multiset(b);
      var i :| 0 <= i < |b| && b[i] == a[0];
      var rest := b[..i] + b[i + 1..];
      assert b == b[..i] + [b[i]] + b[i + 1..];
      assert a == [a[0]] + a[1..];
      assert multiset(b) == multiset(b[..i]) + multiset{b[i]} + multiset(b[i + 1..]);
      assert multiset(a) == multiset{a[0]} + multiset(a[1..]);
      assert multiset(rest) == multiset(b[..i]) + multiset(b[i + 1..]);
      assert multiset(a[1..]) == multiset(a) - multiset{a[0]};
      assert multiset(rest) == multiset(b) - multiset{b[i]};
      SumPermutation(a[1..], rest, f);
      SumAppend(b[..i], b[i + 1..], f);
      SumAppend(b[..i] + [b[i]], b[i + 1..], f);
      SumAppend(b[..i], [b[i]], f);
    }
  }

  /** Under unique keys, two documents with the same key are the same document. */
  lemma UniqueKeysSame<B(!new), K(!new)>(ys: seq<B>, pk: B -> K, a: B, b: B)
    requires UniqueKeys(ys, pk)
    requires a in ys && b in ys && pk(a) == pk(b)
    ensures a == b
  {
    var i :| 0 <= i < |ys| && ys[i] == a;
    var j :| 0 <= j < |ys| && ys[j] == b;
    assert !(i < j) && !(j < i);
  }

  /** A left document whose key is missing on the right makes the key-lookup join shorter than its input. */
  lemma {:induction false} JoinFirstMiss<A(!new), B(!new), K(!new)>(xs: seq<A>, ys: seq<B>, fk: A -> K, pk: B -> K, x: A)
    requires x in xs
    requires forall y :: y in ys ==> pk(y) != fk(x)
    ensures |JoinFirst(xs, ys, fk, pk)| < |xs|
  {
    if xs[0] == x {
      assert Hit(x, ys, fk, pk) == [];
    } else {
      JoinFirstMiss(xs[1..], ys, fk, pk, x);
    }
  }
}

=== FILE: wrappers.dfy ===
/** The optional value returned by a key lookup. */
module Wrappers {

  datatype Option<+T> = None | Some(value: T)
}

=== FILE: zombies.dfy ===
/**
 * Zombie users (`usuariosZombis`): the premium subscribers with no stream
 * in the window, found by joining each user to their streams, filtering the
 * joined streams to the window and keeping the users left with none.
 */
module Zombies {

  import opened Records
  import opened Stages

  const PaidTier: string := "Premium"

  /** The `$project`ed document. */
  datatype ZombieRow = ZombieRow(id: Id, username: string, email: string, country: string, subscription: string)

  function Project(u: User): ZombieRow {
    ZombieRow(u.id, u.username, u.email, u.country, u.subscription)
  }

  /** `$lookup` of the user's streams (kept even when empty), then `$filter` to the window. */
  function RecentStreams(u: User, streams: seq<Stream>, bound: Timestamp): seq<Stream> {
    Since(Where(streams, StreamUserId, u.id), bound)
  }

  /** `u` pays for the premium tier and none of its streams is at or after `bound`. */
  predicate IsZombie(u: User, streams: seq<Stream>, bound: Timestamp) {
    && u.subscription == PaidTier
    && forall st :: st in streams && st.userId == u.id ==> st.date < bound
  }

  /** `$match` on an empty filtered array: the users of `us` with no recent stream, in order. */
  function Inactive(us: seq<User>, streams: seq<Stream>, bound: Timestamp): (r: seq<User>)
    ensures |r| <= |us|
    ensures forall u :: u in r <==> u in us && forall st :: st in streams && st.userId == u.id ==> st.date < bound
  {
    if us == [] then []
    else
      var u := us[0];
      assert RecentStreams(u, streams, bound) == [] <==> forall st :: st in streams && st.userId == u.id ==> st.date < bound by {
        if RecentStreams(u, streams, bound) != [] {
          assert RecentStreams(u, streams, bound)[0] in RecentStreams(u, streams, bound);
        }
      }
      (if RecentStreams(u, streams, bound) == [] then [u] else []) + Inactive(us[1..], streams, bound)
  }

  function ZombieUsers(users: seq<User>, streams: seq<Stream>, bound: Timestamp): seq<User> {
    Inactive(Where(users, UserSubscription, PaidTier), streams, bound)
  }

  /**
   * The whole pipeline: a row for every zombie user of the collection and
   * no other row; no row for a user of another tier, however inactive.
   */
  function ZombieReport(users: seq<User>, streams: seq<Stream>, bound: Timestamp): (r: seq<ZombieRow>)
    ensures |r| <= |users|
    ensures forall u :: u in users && IsZombie(u, streams, bound) ==> Project(u) in r
    ensures forall row :: row in r ==> exists u :: u in users && IsZombie(u, streams, bound) && Project(u) == row
    ensures forall row :: row in r ==> row.subscription == PaidTier
  {
    var zs := ZombieUsers(users, streams, bound);
    var r := seq(|zs|, i requires 0 <= i < |zs| => Project(zs[i]));
    assert forall u :: u in users && IsZombie(u, streams, bound) ==> Project(u) in r by {
      forall u | u in users && IsZombie(u, streams, bound)
        ensures Project(u) in r
      {
        var i :| 0 <= i < |zs| && zs[i] == u;
        assert r[i] == Project(u);
      }
    }
    assert forall row :: row in r ==> exists u :: u in users && IsZombie(u, streams, bound) && Project(u) == row by {
      forall row | row in r
        ensures exists u :: u in users && IsZombie(u, streams, bound) && Project(u) == row
      {
        var i :| 0 <= i < |r| && r[i] == row;
        assert zs[i] in zs;
      }
    }
    r
  }

  // The same set computed as a relational anti-join.

  /** The users that streamed at least once at or after `bound`. */
  function ActiveIds(streams: seq<Stream>, bound: Timestamp): set<Id> {
    set st | st in streams && st.date >= bound :: st.userId
  }

  /** Set difference on user ids, keeping order. */
  function Without(us: seq<User>, ids: set<Id>): seq<User> {
    if us == [] then []
    else (if us[0].id in ids then [] else [us[0]]) + Without(us[1..], ids)
  }

  /**
   * Outer join, filter and emptiness test compute the anti-join "premium
   * users minus users with a recent stream", in the same order.
   */
  lemma {:induction false} ZombiesAreAntiJoin(us: seq<User>, streams: seq<Stream>, bound: Timestamp)
    ensures Inactive(us, streams, bound) == Without(us, ActiveIds(streams, bound))
  {
    if us != [] {
      var u := us[0];
      var recent := RecentStreams(u, streams, bound);
      if recent != [] {
        assert recent[0] in recent;
        assert u.id in ActiveIds(streams, bound);
      } else {
        assert u.id !in ActiveIds(streams, bound);
      }
      ZombiesAreAntiJoin(us[1..], streams, bound);
    }
  }

  /** The report projects exactly the premium users outside the set of active ids. */
  lemma ZombieReportIsAntiJoin(users: seq<User>, streams: seq<Stream>, bound: Timestamp)
    ensures var anti := Without(Where(users, UserSubscription, PaidTier), ActiveIds(streams, bound));
      ZombieReport(users, streams, bound) == seq(|anti|, i requires 0 <= i < |anti| => Project(anti[i]))
  {
    ZombiesAreAntiJoin(Where(users, UserSubscription, PaidTier), streams, bound);
  }
}
